=== FILE: README.md ===
# httportal pairing and relay core, in Dafny

httportal relays one file from a sender's browser to a receiver's browser
through the server. A sender creates a *connection* under a short random id
(four letters and three digits). Each party gets a signed *peer id* cookie
(`Pid`) that binds the connection id to a role, `sender` or `receiver`. The
upload handler copies the file into an in-memory pipe, and the download
handler copies it out. Both parties follow progress through a server-sent
event stream.

This project models the sequential, state-based logic of that core as
immutable datatypes and pure functions:

- `Base64Url` (base64.dfy) implements the padded URL-safe base64 of section 5
  of RFC 4648, as Go's `base64.URLEncoding` encodes and (non-strictly)
  decodes it. `Sequences` holds the first-separator split that
  `strings.SplitN(s, sep, 2)` performs.
- `Peers` (peer.dfy) models the peer-id token: `Pid` and `ParsePeer`.
  HMAC-SHA256 under the process secret is a function parameter `mac`.
- `Secrets` (secrets.dfy) models the id generator. The `rand.Intn` results
  are an input sequence of draws.
- `Connection` (conn.dfy) models a connection as a state record:
  - the two pipe ends;
  - the `joined` latch;
  - each role's `entered` flag and message-channel state.
  Each transition returns the new state together with the channels it
  closed, so that "closed at most once" can be stated over any sequence of
  operations.
- `Registry` (portal.dfy) models the id-to-connection map. Creation is driven
  by the ids that successive `generateId` calls return. The five-minute idle
  disposal is an explicit event.
- `Messages` (mssg.dfy) models the event-stream serialiser. `EventStream`
  (event_stream.dfy) is the client side of section 9.2.6 of the WHATWG HTML
  Living Standard ("Interpreting an event stream"), against which the
  serialiser is checked.
- `ClientErrors` (errors.dfy) models the error record that handlers return.
- `Vite` (vite.dfy) models the tag renderer of vite/vite.go.
  `filepath.Join` and `strings.TrimSpace` are function parameters, and the
  decoded manifest is an input.
- `Handlers` (app.dfy) models the decisions of the HTTP handlers:
  - the errors they return and how `withError` shows them;
  - the order of the cookie, token, role, lookup and entry checks;
  - the cookies they hand out;
  - the status events they broadcast.

The connection's `Enter` is modelled as the code is written. Each role has
an `entered` flag (app/conn.go:20), and the code has "already joined" errors
(app/conn.go:51,57; app/app.go:112,162,246). Together they suggest that a
role was meant to join a connection only once. But `Enter` only reads the
flag and never sets it (app/conn.go:47-63). So `Enter` by either role always
succeeds, `CanEnter` stays true, and those error branches can never be
taken. The model follows the code and proves this behaviour:
`Connection.EnterAlwaysSucceeds` and `Handlers.UploadAdmittedTwice`.

## Model

| member | source | states |
|---|---|---|
| Base64Url.Encode | app/peer.go:26 | the encoding is `4 * ceil(n/3)` bytes long and uses only the URL-safe alphabet and `=` |
| Base64Url.Decode | app/peer.go:35-42 | the text is accepted only if, once CR and LF are dropped, its length is a multiple of four |
| Base64Url.DecodeEncode | app/peer.go:26 | decoding any encoding gives back the original bytes |
| Base64Url.DecodeQuantaOfEncode | app/peer.go:26 | quantum by quantum, full and padded final quanta decode to the bytes that were encoded |
| Base64Url.EncodeHasNoDot | app/peer.go:26 | an encoding never contains `.`, so the token separator is unambiguous |
| Base64Url.DecodeRejectsForeignByte | app/peer.go:35-42 | a byte outside the alphabet, `=`, CR and LF makes decoding fail |
| Base64Url.SextetRoundTrip | app/peer.go:26 | each 6-bit value has one alphabet character, and decoding that character gives the value back |
| Sequences.SplitFirst | app/peer.go:30-34 | there is no split iff the separator is absent; otherwise the input is head + separator + tail, and the head has no separator |
| Sequences.SplitFirstOfJoin | app/peer.go:54-58 | splitting `a + sep + b`, where `a` has no separator, gives back `(a, b)` |
| Peers.Pid | app/peer.go:21-27 | the token is the encoded MAC of `id:role`, a `.`, then the encoded `id:role` |
| Peers.ParsePeer | app/peer.go:29-63 | every failure returns the empty peer with `ErrInvalidPeer`; a token without `.` fails; success means the role is sender or receiver, the id has no `:`, and both halves decode to a payload `id:role` and its MAC |
| Peers.ParsePid | app/peer.go:21-63 | a token minted for a role and an id without `:` parses back to that role |
| Peers.TamperedTokenRejected | app/peer.go:44-50 | a token whose signature is not the MAC of its payload is rejected |
| Peers.TokenBoundToId | app/peer.go:52-61 | a token minted for one id is rejected for any other id |
| Peers.TokenBoundToRole | app/peer.go:52-62 | an accepted token yields the role it was minted for |
| Peers.PayloadSplit | app/peer.go:53-58 | the payload split on the first `:` recovers the id and role it was built from |
| Peers.RoleHasNoColon | app/peer.go:13-16 | neither role name contains `:` |
| Secrets.Alphabets | app/secrets.go:18-20 | 26 letters a-z, the digits in the order 1234567890, and an id length of 7 |
| Secrets.GenerateId | app/secrets.go:22-32 | the id has length 7; positions 0-3 are the drawn letters and positions 4-6 the drawn digits |
| Secrets.IdHasNoSeparators | app/secrets.go:18 | a generated id contains neither `:` nor `.` |
| Secrets.DrawsOf | app/secrets.go:22-32 | every id of the generated shape arises from some in-range draws |
| Secrets.DrawsDetermineId | app/secrets.go:22-32 | different in-range draws give different ids |
| Connection.Enter | app/conn.go:47-63 | the handles and pipe are unchanged; success iff the peer is a role whose flag is unset; success latches `joined`; an error changes nothing; an unknown peer is refused |
| Connection.CanEnter | app/conn.go:65-73 | true iff the peer is a role whose `entered` flag is unset |
| Connection.Mssg | app/conn.go:77-86 | each role gets its own queue; an unknown peer gets the nil channel |
| Connection.CloseEnd | app/conn.go:126 | closing a pipe end closes it, and the first close's error is the one kept |
| Connection.CloseWriter | app/conn.go:101-107 | an open write end is closed with EOF and one closed earlier keeps its first error; the sender channel is closed only if it was open; nothing on the receiver side changes |
| Connection.CloseReader | app/conn.go:109-115 | the mirror image of `CloseWriter` on the read end and the receiver channel: an open read end is closed with `ErrClosedPipe`, one closed earlier keeps its first error |
| Connection.Close | app/conn.go:117-120 | both ends and both channels end closed, and `joined` is untouched |
| Connection.CloseWriterIdempotent | app/conn.go:101-107 | a second `CloseWriter` changes nothing and closes no channel |
| Connection.CloseReaderIdempotent | app/conn.go:109-115 | a second `CloseReader` changes nothing and closes no channel |
| Connection.CloseHalvesCommute | app/conn.go:101-120 | closing the halves in either order gives the same state and closes the same channels |
| Connection.CloseIdempotent | app/conn.go:117-120 | a second `Close` changes nothing and closes no channel |
| Connection.RunClosesEachChannelOnce | app/conn.go:29-115 | over any sequence of operations, a channel is closed at most once and is never reopened (the purpose of the `sync.Once` guards) |
| Connection.FreshConnClosesAtMostOnce | app/conn.go:34-45 | from `NewConn`, no channel is closed twice |
| Connection.EnteredNeverSet | app/conn.go:47-63 | no operation sets either role's `entered` flag |
| Connection.EnterAlwaysSucceeds | app/conn.go:47-73 | on every connection reachable from `NewConn`, `Enter` by either role succeeds and `CanEnter` holds |
| Connection.JoinedNeverResets | app/conn.go:53-59 | once latched, `joined` stays latched |
| Connection.Send | app/conn.go:124-128 | the copy's outcome is returned unchanged, and an open write end is closed with its error (EOF for success); a write end closed earlier keeps its first close reason; nothing else changes |
| Connection.ReceiveEnd | app/conn.go:132-134 | a read on the drained pipe blocks iff both ends are open; a closed read end fails with `ErrClosedPipe`; otherwise the write end's close error is returned, EOF reported as no error |
| Connection.EarlyCloseHidesSendError | app/app.go:166-170 | when the request-end `CloseWriter` runs before `Send` closes the pipe, the sender's copy reports its error but the reader sees a clean end of stream |
| Connection.ReceiverSeesSendOutcome | app/conn.go:124-134 | after `Send` on an open pipe, the receiver's copy ends with the sender's error, or cleanly when the sender succeeded |
| Connection.ProgressRead | app/conn.go:143-150 | the inner `(n, err)` is returned unchanged, and a delta is emitted iff `err` is nil, the delta being `n` |
| Connection.DeltasAccountForReads | app/conn.go:143-150 | the emitted deltas sum to at most the bytes returned, with equality iff no read returned bytes together with an error |
| Registry.GetConnection | app/portal.go:21-29 | succeeds iff the id is live, returning the stored connection |
| Registry.CreateWithRetries | app/portal.go:35-50 | fails iff all of the first `n` candidates are live, leaving the map unchanged; otherwise the first free candidate is inserted with a fresh connection, nothing else changes, and the size grows by one |
| Registry.CreateConnection | app/portal.go:31-50 | fails iff the first three candidates are all live, leaving the map unchanged; otherwise the first free one of them is inserted with a fresh connection |
| Registry.DisposeIdle | app/portal.go:52-66 | a live, unjoined connection is closed and its id alone removed; otherwise nothing changes |
| Registry.NewPortalInvariant | app/portal.go:15-19 | the empty registry satisfies the registry invariant |
| Registry.CreatePreservesInvariant | app/portal.go:35-50 | creation from generated ids keeps every key a generated id and every `entered` flag unset |
| Registry.DisposePreservesInvariant | app/portal.go:52-66 | disposal keeps the registry invariant |
| Registry.DisposeRemovesOnlyIdle | app/portal.go:52-66 | disposal leaves every other id and its connection as they were |
| Registry.DisposedIdReusable | app/portal.go:31-66 | an id freed by disposal can be handed out again by the next creation |
| Messages.Serialize | app/mssg.go:12-29 | an `event:` line only for a named event, a `data:` line holding the data verbatim, and a blank line; the `:` comment fallback is never produced |
| Messages.AppendMssgSplits | app/mssg.go:24-29 | a non-empty single line joined to `s` splits back, at the first newline, into that line and `s` |
| EventStream.SerializeRoundTrip | app/mssg.go:12-22 | a client parsing the serialised message dispatches its type ("message" when unnamed) and its data, when neither holds a line break |
| EventStream.LineBreakInDataTruncates | app/mssg.go:17 | the data is written verbatim: when a `\n` in it is followed by a non-empty, colon-free line naming no known field, the client sees only what precedes the break |
| EventStream.DataTailReadAsDataLine | app/mssg.go:17 | the data is written verbatim: when what follows a line break reads as a `data:` line, the client receives both values joined by a newline |
| EventStream.DataThenBlank | app/mssg.go:17-21 | a `data:` line followed by a blank line dispatches exactly that data |
| ClientErrors.NewClientErrorDefaults | app/errors.go:12-28 | a new error has the given message, no description and status 400, and it unwraps to what it wraps |
| ClientErrors.WithStatusChangesOnlyStatus | app/errors.go:16-19 | `WithStatus` sets the status and changes nothing else |
| ClientErrors.WithDescChangesOnlyDesc | app/errors.go:21-24 | `WithDesc` sets the description and changes nothing else |
| ClientErrors.SettersCommute | app/errors.go:16-24 | the two setters commute, and a later call of the same setter overrides an earlier one |
| Vite.NewFS | vite/vite.go:73-91 | the static path is joined under `/`; in dev mode the manifest is empty and nothing fails; otherwise the loaded manifest is kept, and the call fails iff loading failed |
| Vite.AssetPath | vite/vite.go:119-128 | in dev mode it never fails and joins the trimmed name under `/`; otherwise it fails iff the name is not in the manifest, and else joins the chunk's file under the static path |
| Vite.AppendTagsJoin | vite/vite.go:130-135 | appending non-empty tags one by one puts `\n\t` between tags, never before the first |
| Vite.ImportedChunks | vite/vite.go:176-189 | the result is one lookup pass over the dynamic imports followed by the static imports; only the entry's own imports are listed |
| Vite.Present | vite/vite.go:178-187 | at most one chunk per name, each the manifest's chunk for a listed name; all names present gives each name's chunk in order, and none present gives nothing |
| Vite.PresentSingle | vite/vite.go:179-181 | one name contributes its chunk if the manifest has it, and nothing otherwise |
| Vite.PresentAppend | vite/vite.go:178-187 | lookup distributes over concatenation, so chunks come out in name order and absent names are skipped, whatever mix of names is present |
| Vite.PublicPathUnderStaticPath | vite/vite.go:113-115 | a public asset's path is the trimmed name joined under the static path, itself joined under `/` |
| Vite.RenderDevMode | vite/vite.go:141-150 | dev rendering never fails; it gives the client script, then one module script per input, in input order |
| Vite.RenderBuildMode | vite/vite.go:153-174 | production rendering fails, with empty output, iff some input is not an entry chunk, and it reports the first such input; otherwise it gives each entry's CSS, its imports' CSS, its script and its preloads, in input order |
| Handlers.ViewOf | app/app.go:346-349 | a non-ClientError shows ("Something went wrong!", "", 500); a ClientError shows its own message, description and status |
| Handlers.WithError | app/app.go:339-363 | there is no response iff there is no error; htmx requests get an alert, and others an error page with the status |
| Handlers.ShownAsBuilt | app/app.go:339-363 | a handler's ClientError is shown with exactly the message, description and status it was built with |
| Handlers.SendPost | app/app.go:46-67 | fails with 500 "Failed to create connection" iff all three candidates are live, leaving the registry unchanged; otherwise it registers a fresh id and hands out the sender cookie |
| Handlers.NotFoundDesc | app/app.go:97-104 | "Invalid connection ID." iff the id is shorter than 7; the open-the-link text iff it is longer and starts with "http"; otherwise the invalid-or-expired text |
| Handlers.ReceivePost | app/app.go:93-128 | a cookie iff the id is live and the receiver can enter; an unknown id gets 404 "Connection not found" with the chosen description; otherwise 400 "Connection not available" |
| Handlers.ReceivePostFindsOnlyMissing | app/app.go:109-113 | in a registry meeting the registry invariant (kept by creation, disposal, `sendPost` and both transfer routes), the "Connection not available" branch is never taken |
| Handlers.AdmitPreservesInvariant | app/app.go:152-163 | writing the entered connection back keeps the registry invariant |
| Handlers.TransferPreservesInvariant | app/app.go:130-247 | both transfer routes keep the registry invariant |
| Handlers.SendPostPreservesInvariant | app/app.go:46-52 | `sendPost` with generated ids keeps the registry invariant |
| Handlers.ReceivePage | app/app.go:69-91 | the id is kept, and the receiver cookie set, iff the lookup succeeds and the receiver can enter; otherwise the id is blanked |
| Handlers.Admit | app/app.go:130-163 | admission means a valid token for the gate's role and a live id; the connection is then replaced by the entered one; a refusal changes nothing and names its cause: 401 with the gate's "no token" text for a missing cookie or bad token, 401 with its "wrong role" text for the other role's token, 404 "Connection not found" / "The connection has expired." for an unknown id, 400 "Connection not available" with the gate's "already joined" text otherwise |
| Handlers.AdmitIff | app/app.go:130-163 | a request is admitted iff the cookie holds a token for this id and the gate's role, the id is live, and the role can enter |
| Handlers.UnauthorizedIgnoresRegistry | app/app.go:133-157 | a request without a valid token for the role is refused with 401, whatever the registry holds; every other outcome is not 401 |
| Handlers.TransferUpload | app/app.go:130-163 | the upload is admitted only with a valid sender token for a live id, and the connection's `joined` latch is then set; any other token gets 401 "Unauthorized to send" |
| Handlers.TransferDownload | app/app.go:214-247 | the download is admitted only with a valid receiver token for a live id, and the connection's `joined` latch is then set; any other token gets 401 "Unauthorized to receive" |
| Handlers.CookieOpensOnlyItsRoute | app/app.go:145-150 | a receiver token never opens the upload route, and a sender token never opens the download route |
| Handlers.SendThenUpload | app/app.go:46-67 | the cookie `sendPost` hands out is admitted by the upload route of the connection it created |
| Handlers.ReceiveThenDownload | app/app.go:114-122 | the cookie `receivePost` hands out is admitted by the download route |
| Handlers.UploadAdmittedTwice | app/app.go:158-163 | as written, an admitted sender is admitted again; the "Sender already joined" refusal never happens |
| Handlers.UploadRun | app/app.go:164-211 | a form failure broadcasts only the join event and returns 400 "Upload failed", described as "Failed to parse uploaded file." for a missing file and "Failed to parse file type." for an unreadable type; otherwise the broadcasts are exactly join, "Waiting to upload", "Uploading...", then either "Upload failed" (copy error) or the `progress` "100%" event and "Upload complete" |
| Handlers.DownloadRun | app/app.go:248-270 | the join, waiting and downloading events, then "Download complete" iff the copy succeeded, else "Download failed" |
| Handlers.TransferOutcomesAgree | app/app.go:203-269 | when the receiver's copy reaches the end of the pipe, the two sides announce completion together or failure together |
| Handlers.TransferEvents | app/app.go:273-305 | streams iff the token is valid and the id live, and then on the role's own queue; a missing cookie or bad token gets the `close` event "Unauthorized"; a valid token for an unknown id gets `close` "Not Found" |
| Handlers.EventsStreamOwnQueue | app/app.go:289-305 | a sender token streams the sender queue, and a receiver token the receiver queue |
| Handlers.EventsNeverNilQueue | app/app.go:289-305 | a stream is never opened on the nil channel |

## Left out

- Goroutines, channels, `sync.WaitGroup`, `sync.Once` and the mutexes. Every operation is one atomic step. Channel closing is recorded as an event, and `Broadcast` fan-out is not modelled, because it guarantees no delivery order.
- `AnyJoined` is the `joined` latch itself. Waiting on it is the disposal event's `!joined` condition.
- The pipe state that `Send` and `Receive` change is not written back into the registry by `Handlers.UploadRun` and `Handlers.DownloadRun`. Those runs take the copy outcomes as inputs, and no stated property of the registry depends on the pipe.
- `io.Pipe` buffering and backpressure. `Receive` is modelled by how it ends on a drained pipe. Copy outcomes are inputs.
- HMAC-SHA256 and the `crypto/rand` secret are the `mac` parameter. `math/rand` is the draws input. These are foreign cryptography and entropy.
- The five-minute idle timer is the explicit `DisposeIdle` event.
- The upload progress sampler (a ticker goroutine and a floating-point percentage) is left out, as concurrency and floating point. `Handlers.UploadRun` lists only the events the handler itself broadcasts.
- HTTP plumbing is left out because it is I/O:
  - reading cookies and forms;
  - `detectContentType`, whose failure is an input;
  - `TimeoutHandler`;
  - response headers and flushing;
  - the ping loop and the goroutines that close the pipe when a request ends;
  - `mssgToHTML` (templates and a regular expression);
  - the template rendering in `withError`.
- The cookie's expiry, `HttpOnly` and `SameSite` attributes are left out. Only its value and path are modelled.
- Reading and JSON-decoding the Vite manifest are an input of `Vite.NewFS`. `FileServer` and its middleware are HTTP handlers.
- `main.go`, `env.go`, `views/**`, `tailwind.config.ts` and `types.d.ts` are left out. They are process wiring and presentation.
- The event-stream parser handles the fields this server writes (`event`, `data`, comments and ignored fields). It does not model `id`, `retry`, the byte-order mark or the reconnection logic.
- Go strings are byte strings. Ids, peers and tokens are modelled as bytes. Message, description and tag texts are Dafny character strings, because their bytes are never inspected.
- Handlers.UploadRun: a form failure wraps the Go error text given as input, not the exact error `FormFile` or `Seek` would return.

=== FILE: app.dfy ===
/**
 * The HTTP handlers of app/app.go, reduced to their decisions: which error a
 * request ends with, which cookie it is given, which connection it enters,
 * and the status events the transfer handlers broadcast. Request parsing,
 * templates and the response writer are not modelled; a handler's inputs
 * (the path id, the `Session` cookie, the form id) are parameters.
 */
module Handlers {

  import opened Wrappers
  import opened Bytes
  import opened ClientErrors
  import Peers
  import Connection
  import Registry
  import Secrets
  import Messages

  /** The handler state: the registry and the key that signs peer ids. */
  datatype App = App(portal: Registry.Portal, mac: Peers.Mac)

  // The texts of the Go errors a ClientError wraps.
  const NoCookieText := "http: named cookie not present"
  const InvalidPeerText := "invalid peer id"

  function RegistryText(e: Registry.RegistryError): string {
    match e
    case ErrConnectionNotFound => "connection not found"
    case ErrCreateFailed => "failed to create connection"
  }

  function EnterText(e: Connection.EnterError): string {
    match e
    case SenderAlreadyJoined => "sender already joined connection"
    case ReceiverAlreadyJoined => "receiver already joined connection"
    case UnknownPeer => "failed to join connection as unknown"
  }

  /** A `ClientError` as the handlers build it: message, description, status. */
  function Fail(wrapped: Option<GoError>, message: string, desc: string, status: int): ClientError {
    WithStatus(WithDesc(NewClientError(wrapped, message), desc), status)
  }

  /** The `Session` cookie a peer is given; its path scopes it to one connection's transfer routes. */
  datatype Cookie = Cookie(value: bytes, path: bytes)

  function SessionCookie(mac: Peers.Mac, p: Peers.Peer, id: bytes): Cookie {
    Cookie(Peers.Pid(mac, p, id), Ascii("/transfer/") + id)
  }

  /* ---------------------------------------------------------------- withError */

  /** What `withError` shows for a handler's error. */
  datatype ErrorView = ErrorView(message: string, desc: string, status: int)

  /** The response `withError` writes: an alert fragment for htmx requests, else an error page. */
  datatype ErrorResponse = Alert(message: string, desc: string) | ErrorPage(status: int, message: string, desc: string)

  /** Only a `ClientError` chooses what is shown; any other error is a generic 500. */
  function ViewOf(err: GoError): (v: ErrorView)
    ensures err.Client? ==> v == ErrorView(err.ce.message, err.ce.desc, err.ce.status)
    ensures err.Plain? ==> v == ErrorView("Something went wrong!", "", StatusInternalServerError)
  {
    match err
    case Client(ce) => ErrorView(ce.message, ce.desc, ce.status)
    case Plain(_) => ErrorView("Something went wrong!", "", StatusInternalServerError)
  }

  /** `withError`: nothing to do on success; an htmx request gets an alert, others a page with the status. */
  function WithError(err: Option<GoError>, hxRequest: bool): (r: Option<ErrorResponse>)
    ensures r.None? <==> err.None?
    ensures r.Some? && hxRequest ==> r.value == Alert(ViewOf(err.value).message, ViewOf(err.value).desc)
    ensures r.Some? && !hxRequest ==> r.value == ErrorPage(ViewOf(err.value).status, ViewOf(err.value).message, ViewOf(err.value).desc)
  {
    match err
    case None => None
    case Some(e) =>
      var v := ViewOf(e);
      if hxRequest then Some(Alert(v.message, v.desc)) else Some(ErrorPage(v.status, v.message, v.desc))
  }

  /** An error built by a handler is shown exactly as built, whatever it wraps. */
  lemma ShownAsBuilt(wrapped: Option<GoError>, message: string, desc: string, status: int)
    ensures WithError(Some(Client(Fail(wrapped, message, desc, status))), false)
            == Some(ErrorPage(status, message, desc))
    ensures WithError(Some(Client(Fail(wrapped, message, desc, status))), true)
            == Some(Alert(message, desc))
  {
  }

  /* ----------------------------------------------------------------- sendPost */

  /** The registry after a handler ran, and what the handler returned. */
  datatype Outcome<T> = Outcome(portal: Registry.Portal, result: Result<T, ClientError>)

  /** `sendPost`: create a connection and hand its creator the sender cookie. */
  function SendPost(app: App, candidates: seq<bytes>): (r: Outcome<(bytes, Cookie)>)
    requires |candidates| >= 3
    ensures r.result.Err? <==> forall k :: 0 <= k < 3 ==> candidates[k] in app.portal.conns
    ensures r.result.Err? ==>
              r.portal == app.portal
              && r.result.error == Fail(Some(Plain("failed to create connection")), "Failed to create connection", "", StatusInternalServerError)
    ensures r.result.Ok? ==>
              var (id, cookie) := r.result.value;
              id !in app.portal.conns
              && r.portal.conns == app.portal.conns[id := Connection.NewConn()]
              && cookie == SessionCookie(app.mac, Peers.PeerSender, id)
  {
    var created := Registry.CreateConnection(app.portal, candidates);
    match created.result
    case Err(e) =>
      Outcome(created.portal, Err(WithStatus(NewClientError(Some(Plain(RegistryText(e))), "Failed to create connection"), StatusInternalServerError)))
    case Ok(id) => Outcome(created.portal, Ok((id, SessionCookie(app.mac, Peers.PeerSender, id))))
  }

  /* ------------------------------------------------------------ receive pages */

  /** Whether `s` begins with "http". */
  predicate HasHttpPrefix(s: bytes) {
    |s| >= 4 && s[..4] == Ascii("http")
  }

  /** The description `receivePost` gives for an id that names no connection. */
  function NotFoundDesc(id: bytes): (desc: string)
    ensures desc == "Invalid connection ID." <==> |id| < Secrets.IdLen
    ensures desc == "Invalid connection ID, open the link to join connection." <==> |id| > Secrets.IdLen && HasHttpPrefix(id)
    ensures desc == "The connection is invalid or expired." <==>
              |id| == Secrets.IdLen || (|id| > Secrets.IdLen && !HasHttpPrefix(id))
  {
    if |id| < Secrets.IdLen then "Invalid connection ID."
    else if |id| > Secrets.IdLen && HasHttpPrefix(id) then "Invalid connection ID, open the link to join connection."
    else "The connection is invalid or expired."
  }

  /** `receivePost`: look the form id up and hand the receiver cookie. */
  function ReceivePost(app: App, id: bytes): (r: Result<Cookie, ClientError>)
    ensures r.Ok? <==> id in app.portal.conns && Connection.CanEnter(app.portal.conns[id], Peers.PeerReceiver)
    ensures r.Ok? ==> r.value == SessionCookie(app.mac, Peers.PeerReceiver, id)
    ensures id !in app.portal.conns ==>
              r == Err(Fail(Some(Plain("connection not found")), "Connection not found", NotFoundDesc(id), StatusNotFound))
    ensures id in app.portal.conns && r.Err? ==>
              r.error == Fail(None, "Connection not available", "Receiver already joined this connection.", StatusBadRequest)
  {
    match Registry.GetConnection(app.portal, id)
    case Err(e) =>
      Err(WithStatus(WithDesc(NewClientError(Some(Plain(RegistryText(e))), "Connection not found"), NotFoundDesc(id)), StatusNotFound))
    case Ok(conn) =>
      if !Connection.CanEnter(conn, Peers.PeerReceiver) then
        Err(WithDesc(NewClientError(None, "Connection not available"), "Receiver already joined this connection."))
      else Ok(SessionCookie(app.mac, Peers.PeerReceiver, id))
  }

  /** What `GET /receive` renders: the id it pre-fills, and the cookie it sets. */
  datatype ReceiveView = ReceiveView(id: bytes, cookie: Option<Cookie>)

  /** `receive`: an id that cannot be joined is blanked rather than reported. */
  function ReceivePage(app: App, id: bytes): (r: ReceiveView)
    ensures r.id == id || r.id == []
    ensures r.cookie.Some? <==> r.id != []
    ensures r.id != [] <==> ReceivePost(app, id).Ok? && id != []
    ensures r.cookie.Some? ==> r.cookie == Some(SessionCookie(app.mac, Peers.PeerReceiver, id))
  {
    if id == [] then ReceiveView([], None)
    else
      match Registry.GetConnection(app.portal, id)
      case Ok(conn) =>
        if Connection.CanEnter(conn, Peers.PeerReceiver) then ReceiveView(id, Some(SessionCookie(app.mac, Peers.PeerReceiver, id)))
        else ReceiveView([], None)
      case Err(_) => ReceiveView([], None)
  }

  /**
   * In a registry built by these handlers the "already joined" branch of
   * `receivePost` is never taken: a known id always yields a cookie.
   */
  lemma ReceivePostFindsOnlyMissing(app: App, id: bytes)
    requires Registry.Invariant(app.portal)
    ensures ReceivePost(app, id).Ok? <==> id in app.portal.conns
  {
  }

  /* ---------------------------------------------------------- transfer gates */

  /** The role a transfer route admits and the texts of its rejections. */
  datatype Gate = Gate(role: Peers.Peer, unauthorized: string, noToken: string, wrongRole: string, taken: string)

  const UploadGate := Gate(Peers.PeerSender, "Unauthorized to send", "Create a new connection to send.",
                           "Only sender is allowed to send.", "Sender already joined this connection.")

  const DownloadGate := Gate(Peers.PeerReceiver, "Unauthorized to receive", "Join a connection to receive.",
                             "Only receiver is allowed to receive.", "Receiver already joined this connection.")

  /**
   * The checks `transferUpload` and `transferDownload` make before moving
   * any data, in their order: a cookie, a token valid for this id, the
   * gate's role, a live connection, and entry into it. Entering updates the
   * connection in the registry (the Go handlers share the connection by reference).
   */
  function Admit(app: App, g: Gate, id: bytes, cookie: Option<bytes>): (r: Outcome<Connection.Step>)
    ensures r.result.Err? ==> r.portal == app.portal
    ensures r.result.Ok? ==> Authorized(app.mac, g, id, cookie) && id in app.portal.conns
    ensures r.result.Ok? ==> id in app.portal.conns && r.portal.conns == app.portal.conns[id := r.result.value.conn]
    ensures r.result.Ok? ==> id in app.portal.conns && r.result.value == Connection.Enter(app.portal.conns[id], g.role).step
    ensures r.result.Ok? ==> r.result.value.conn.joined
    ensures cookie.None? ==>
              r.result == Err(Fail(Some(Plain(NoCookieText)), g.unauthorized, g.noToken, StatusUnauthorized))
    ensures cookie.Some? && Peers.ParsePeer(app.mac, id, cookie.value).err.Some? ==>
              r.result == Err(Fail(Some(Plain(InvalidPeerText)), g.unauthorized, g.noToken, StatusUnauthorized))
    ensures cookie.Some? && Peers.ParsePeer(app.mac, id, cookie.value).err.None?
            && Peers.ParsePeer(app.mac, id, cookie.value).peer != g.role ==>
              r.result == Err(Fail(None, g.unauthorized, g.wrongRole, StatusUnauthorized))
    ensures Authorized(app.mac, g, id, cookie) && id !in app.portal.conns ==>
              r.result == Err(Fail(Some(Plain("connection not found")), "Connection not found",
                                   "The connection has expired.", StatusNotFound))
    ensures Authorized(app.mac, g, id, cookie) && id in app.portal.conns && r.result.Err? ==>
              r.result.error.message == "Connection not available" && r.result.error.desc == g.taken
              && r.result.error.status == StatusBadRequest
  {
    match cookie
    case None => Outcome(app.portal, Err(Fail(Some(Plain(NoCookieText)), g.unauthorized, g.noToken, StatusUnauthorized)))
    case Some(token) =>
      var parsed := Peers.ParsePeer(app.mac, id, token);
      if parsed.err.Some? then Outcome(app.portal, Err(Fail(Some(Plain(InvalidPeerText)), g.unauthorized, g.noToken, StatusUnauthorized)))
      else if parsed.peer != g.role then Outcome(app.portal, Err(Fail(None, g.unauthorized, g.wrongRole, StatusUnauthorized)))
      else
        match Registry.GetConnection(app.portal, id)
        case Err(e) =>
          Outcome(app.portal, Err(Fail(Some(Plain(RegistryText(e))), "Connection not found", "The connection has expired.", StatusNotFound)))
        case Ok(conn) =>
          var entry := Connection.Enter(conn, parsed.peer);
          match entry.err
          case Some(e) => Outcome(app.portal, Err(WithDesc(NewClientError(Some(Plain(EnterText(e))), "Connection not available"), g.taken)))
          case None => Outcome(Registry.Portal(app.portal.conns[id := entry.step.conn]), Ok(entry.step))
  }

  /**
   * Admission writes back a connection whose `entered` flags are those it
   * had, so the registry invariant survives every transfer request.
   */
  lemma AdmitPreservesInvariant(app: App, g: Gate, id: bytes, cookie: Option<bytes>)
    requires Registry.Invariant(app.portal)
    ensures Registry.Invariant(Admit(app, g, id, cookie).portal)
  {
  }

  /** `sendPost` with generated ids keeps the registry invariant. */
  lemma SendPostPreservesInvariant(app: App, candidates: seq<bytes>)
    requires Registry.Invariant(app.portal)
    requires |candidates| >= 3 && forall k :: 0 <= k < |candidates| ==> Secrets.IsId(candidates[k])
    ensures Registry.Invariant(SendPost(app, candidates).portal)
  {
    Registry.CreatePreservesInvariant(app.portal, 3, candidates);
  }

  /** A token valid for `id` and naming the gate's role. */
  predicate Authorized(mac: Peers.Mac, g: Gate, id: bytes, cookie: Option<bytes>) {
    cookie.Some? && Peers.ParsePeer(mac, id, cookie.value) == Peers.Parsed(g.role, None)
  }

  /** Admission happens exactly when the token is good, the id is live and its role can enter. */
  lemma AdmitIff(app: App, g: Gate, id: bytes, cookie: Option<bytes>)
    requires Peers.IsRole(g.role)
    ensures Admit(app, g, id, cookie).result.Ok? <==>
              Authorized(app.mac, g, id, cookie) && id in app.portal.conns
              && Connection.CanEnter(app.portal.conns[id], g.role)
  {
  }

  /**
   * Every 401 is decided before the registry is consulted: the same request
   * is refused the same way whatever connections exist.
   */
  lemma UnauthorizedIgnoresRegistry(app: App, other: Registry.Portal, g: Gate, id: bytes, cookie: Option<bytes>)
    ensures var r := Admit(app, g, id, cookie).result;
            !Authorized(app.mac, g, id, cookie) <==>
              (r == Admit(app.(portal := other), g, id, cookie).result && r.Err? && r.error.status == StatusUnauthorized)
  {
    var r := Admit(app, g, id, cookie).result;
    if Authorized(app.mac, g, id, cookie) {
      assert r.Err? ==> r.error.status != StatusUnauthorized;
    }
  }

  /** `transferUpload` up to the point where data moves. */
  function TransferUpload(app: App, id: bytes, cookie: Option<bytes>): (r: Outcome<Connection.Step>)
    ensures r.result.Ok? ==> Authorized(app.mac, UploadGate, id, cookie) && id in app.portal.conns
    ensures !Authorized(app.mac, UploadGate, id, cookie) ==>
              r.result.Err? && r.result.error.message == "Unauthorized to send" && r.result.error.status == StatusUnauthorized
    ensures r.result.Ok? ==> id in r.portal.conns && r.portal.conns[id].joined
    ensures r.result.Err? ==> r.portal == app.portal
  {
    Admit(app, UploadGate, id, cookie)
  }

  /** `transferDownload` up to the point where data moves. */
  function TransferDownload(app: App, id: bytes, cookie: Option<bytes>): (r: Outcome<Connection.Step>)
    ensures r.result.Ok? ==> Authorized(app.mac, DownloadGate, id, cookie) && id in app.portal.conns
    ensures !Authorized(app.mac, DownloadGate, id, cookie) ==>
              r.result.Err? && r.result.error.message == "Unauthorized to receive" && r.result.error.status == StatusUnauthorized
    ensures r.result.Ok? ==> id in r.portal.conns && r.portal.conns[id].joined
    ensures r.result.Err? ==> r.portal == app.portal
  {
    Admit(app, DownloadGate, id, cookie)
  }

  lemma TransferPreservesInvariant(app: App, id: bytes, cookie: Option<bytes>)
    requires Registry.Invariant(app.portal)
    ensures Registry.Invariant(TransferUpload(app, id, cookie).portal)
    ensures Registry.Invariant(TransferDownload(app, id, cookie).portal)
  {
    AdmitPreservesInvariant(app, UploadGate, id, cookie);
    AdmitPreservesInvariant(app, DownloadGate, id, cookie);
  }

  /** A token issued for one role never opens the other role's route. */
  lemma CookieOpensOnlyItsRoute(app: App, id: bytes)
    ensures TransferDownload(app, id, Some(Peers.Pid(app.mac, Peers.PeerSender, id))).result.Err?
    ensures TransferUpload(app, id, Some(Peers.Pid(app.mac, Peers.PeerReceiver, id))).result.Err?
  {
    Peers.TokenBoundToRole(app.mac, Peers.PeerSender, id);
    Peers.TokenBoundToRole(app.mac, Peers.PeerReceiver, id);
  }

  /**
   * The sender flow: a connection created by `sendPost` admits the cookie
   * it handed out at `POST /transfer/{id}`.
   */
  lemma SendThenUpload(app: App, candidates: seq<bytes>)
    requires Registry.Invariant(app.portal)
    requires |candidates| >= 3 && forall k :: 0 <= k < |candidates| ==> Secrets.IsId(candidates[k])
    ensures var s := SendPost(app, candidates);
            s.result.Ok? ==>
              TransferUpload(app.(portal := s.portal), s.result.value.0, Some(s.result.value.1.value)).result.Ok?
  {
    var s := SendPost(app, candidates);
    if s.result.Ok? {
      var id := s.result.value.0;
      var created := Registry.CreateWithRetries(app.portal, 3, candidates);
      var k :| 0 <= k < 3 && candidates[k] == created.result.value;
      Secrets.IdHasNoSeparators(id);
      Peers.ParsePid(app.mac, Peers.PeerSender, id);
      AdmitIff(app.(portal := s.portal), UploadGate, id, Some(s.result.value.1.value));
    }
  }

  /**
   * The receiver flow: the cookie `receivePost` hands out is admitted at
   * `GET /transfer/{id}` while the connection lives.
   */
  lemma ReceiveThenDownload(app: App, id: bytes)
    requires Registry.Invariant(app.portal)
    ensures ReceivePost(app, id).Ok? ==> TransferDownload(app, id, Some(ReceivePost(app, id).value.value)).result.Ok?
  {
    if ReceivePost(app, id).Ok? {
      Secrets.IdHasNoSeparators(id);
      Peers.ParsePid(app.mac, Peers.PeerReceiver, id);
      AdmitIff(app, DownloadGate, id, Some(ReceivePost(app, id).value.value));
    }
  }

  /**
   * As written, `Enter` never records the entry, so the "already joined"
   * rejection is never reached: the same cookie is admitted again.
   */
  lemma UploadAdmittedTwice(app: App, id: bytes, cookie: Option<bytes>)
    requires TransferUpload(app, id, cookie).result.Ok?
    ensures TransferUpload(app.(portal := TransferUpload(app, id, cookie).portal), id, cookie).result.Ok?
  {
    var first := TransferUpload(app, id, cookie);
    var conn := app.portal.conns[id];
    assert first.portal.conns[id] == Connection.Enter(conn, UploadGate.role).step.conn;
    assert first.portal.conns[id].sender == conn.sender;
    AdmitIff(app.(portal := first.portal), UploadGate, id, cookie);
  }

  /* --------------------------------------------------------- transfer runs */

  /** Why the upload form was refused. */
  datatype FormError = NoFile(reason: string) | NoContentType(reason: string)

  /** The status events a handler broadcast, and the error it returned. */
  datatype Run = Run(broadcast: seq<Messages.Mssg>, err: Option<ClientError>)

  /** The events an upload broadcasts before its copy finishes. */
  function UploadStarted(): seq<Messages.Mssg> {
    [Messages.Mssg("", "Sender has joined connection"), Messages.Mssg("", "Waiting to upload"), Messages.Mssg("", "Uploading...")]
  }

  /**
   * The rest of `transferUpload` once admitted, given the outcome of parsing
   * the form and of the copy into the pipe. The per-second progress events
   * are left out: they come from a separate goroutine.
   */
  function UploadRun(form: Option<FormError>, sendErr: Option<Connection.IoError>): (r: Run)
    ensures |r.broadcast| >= 1 && r.broadcast[0] == Messages.Mssg("", "Sender has joined connection")
    ensures r.err.Some? <==> form.Some?
    ensures r.err.Some? ==> r.broadcast == [Messages.Mssg("", "Sender has joined connection")]
                            && r.err.value.message == "Upload failed" && r.err.value.status == StatusBadRequest
    ensures form.Some? ==>
              r.err.Some? && r.err.value.desc == (if form.value.NoFile? then "Failed to parse uploaded file." else "Failed to parse file type.")
    ensures form.None? && sendErr.Some? ==>
              r.broadcast == UploadStarted() + [Messages.Mssg("", "Upload failed")]
    ensures form.None? && sendErr.None? ==>
              r.broadcast == UploadStarted() + [Messages.Mssg("progress", "100%"), Messages.Mssg("", "Upload complete")]
    ensures Messages.Mssg("", "Upload complete") in r.broadcast <==> form.None? && sendErr.None?
    ensures Messages.Mssg("", "Upload failed") in r.broadcast <==> form.None? && sendErr.Some?
  {
    var joined := Messages.Mssg("", "Sender has joined connection");
    match form
    case Some(NoFile(reason)) => Run([joined], Some(WithDesc(NewClientError(Some(Plain(reason)), "Upload failed"), "Failed to parse uploaded file.")))
    case Some(NoContentType(reason)) => Run([joined], Some(WithDesc(NewClientError(Some(Plain(reason)), "Upload failed"), "Failed to parse file type.")))
    case None =>
      var started := UploadStarted();
      if sendErr.Some? then Run(started + [Messages.Mssg("", "Upload failed")], None)
      else Run(started + [Messages.Mssg("progress", "100%"), Messages.Mssg("", "Upload complete")], None)
  }

  /** The rest of `transferDownload` once admitted, given the outcome of the copy out of the pipe. */
  function DownloadRun(receiveErr: Option<Connection.IoError>): (r: Run)
    ensures r.err.None?
    ensures |r.broadcast| == 4
    ensures r.broadcast[..3] == [Messages.Mssg("", "Receiver has joined connection"),
                                 Messages.Mssg("", "Waiting to download"), Messages.Mssg("", "Downloading...")]
    ensures r.broadcast[3] == (if receiveErr.None? then Messages.Mssg("", "Download complete") else Messages.Mssg("", "Download failed"))
  {
    var outcome := if receiveErr.None? then "Download complete" else "Download failed";
    Run([Messages.Mssg("", "Receiver has joined connection"), Messages.Mssg("", "Waiting to download"),
         Messages.Mssg("", "Downloading..."), Messages.Mssg("", outcome)], None)
  }

  /**
   * When the receiver's copy runs to the end of the pipe, it reports what the
   * sender's copy reported: both sides announce completion, or both failure.
   */
  lemma TransferOutcomesAgree(c: Connection.Conn, written: nat, sendErr: Option<Connection.IoError>)
    requires c.pw.Open? && c.pr.Open?
    requires sendErr != Some(Connection.EOF)
    ensures var sent := Connection.Send(c, written, sendErr);
            var end := Connection.ReceiveEnd(sent.conn);
            end.Finished?
            && (Messages.Mssg("", "Upload complete") in UploadRun(None, sendErr).broadcast
                <==> Messages.Mssg("", "Download complete") in DownloadRun(end.err).broadcast)
  {
    Connection.ReceiverSeesSendOutcome(c, written, sendErr);
    var r := DownloadRun(Connection.ReceiveEnd(Connection.Send(c, written, sendErr).conn).err);
    assert r.broadcast == r.broadcast[..3] + [r.broadcast[3]];
  }

  /* ---------------------------------------------------------------- events */

  /** How `transferEvents` proceeds: a final `close` event, or streaming a role's queue. */
  datatype EventsOutcome = CloseWith(event: Messages.Mssg) | Stream(queue: Connection.Queue)

  /** `transferEvents`: refusals are sent as a `close` event so the client stops reconnecting. */
  function TransferEvents(app: App, id: bytes, cookie: Option<bytes>): (r: EventsOutcome)
    ensures r.Stream? <==> cookie.Some? && Peers.ParsePeer(app.mac, id, cookie.value).err.None? && id in app.portal.conns
    ensures r.Stream? ==> r.queue == Connection.Mssg(Peers.ParsePeer(app.mac, id, cookie.value).peer)
    ensures cookie.None? || Peers.ParsePeer(app.mac, id, cookie.value).err.Some? ==>
              r == CloseWith(Messages.Mssg("close", "Unauthorized"))
    ensures r.CloseWith? ==> r.event.event == "close"
    ensures r.CloseWith? ==> (r.event.data == "Not Found" <==> cookie.Some? && Peers.ParsePeer(app.mac, id, cookie.value).err.None?)
  {
    match cookie
    case None => CloseWith(Messages.Mssg("close", "Unauthorized"))
    case Some(token) =>
      var parsed := Peers.ParsePeer(app.mac, id, token);
      if parsed.err.Some? then CloseWith(Messages.Mssg("close", "Unauthorized"))
      else
        match Registry.GetConnection(app.portal, id)
        case Err(_) => CloseWith(Messages.Mssg("close", "Not Found"))
        case Ok(_) => Stream(Connection.Mssg(parsed.peer))
  }

  /**
   * A stream is only ever opened on a role's own queue, never on the nil
   * channel (which would block forever), and only for a valid token.
   */
  lemma EventsStreamOwnQueue(app: App, id: bytes, p: Peers.Peer)
    requires Peers.IsRole(p) && Colon !in id && id in app.portal.conns
    ensures TransferEvents(app, id, Some(Peers.Pid(app.mac, p, id)))
            == Stream(if p == Peers.PeerSender then Connection.SenderQueue else Connection.ReceiverQueue)
  {
    Peers.ParsePid(app.mac, p, id);
  }

  lemma EventsNeverNilQueue(app: App, id: bytes, cookie: Option<bytes>)
    ensures TransferEvents(app, id, cookie).Stream? ==> TransferEvents(app, id, cookie).queue != Connection.NilQueue
  {
  }
}

=== FILE: base64.dfy ===
/**
 * Padded base64 with the URL- and filename-safe alphabet of section 5 of
 * RFC 4648, as Go's `base64.URLEncoding` implements it: encoding always pads
 * to a multiple of four characters; decoding skips '\r' and '\n', demands
 * the padding, accepts it only in the final quantum, and (not being in strict
 * mode) ignores leftover low bits of the last character.
 */
module Base64Url {

  import opened Wrappers
  import opened Bytes

  type sextet = x: int | 0 <= x < 64

  const Pad: byte := 61    // '='

  /** Table 2 of RFC 4648 with "-" and "_" as values 62 and 63 (section 5). */
  function EncodeSextet(v: sextet): (c: byte)
    ensures IsAlphabet(c)
  {
    if v < 26 then (65 + v) as byte           // 'A'..'Z'
    else if v < 52 then (97 + v - 26) as byte // 'a'..'z'
    else if v < 62 then (48 + v - 52) as byte // '0'..'9'
    else if v == 62 then 45                   // '-'
    else 95                                   // '_'
  }

  predicate IsAlphabet(c: byte) {
    65 <= c <= 90 || 97 <= c <= 122 || 48 <= c <= 57 || c == 45 || c == 95
  }

  /** The value of an alphabet character: the inverse of `EncodeSextet`. */
  function DecodeSextet(c: byte): (v: sextet)
    requires IsAlphabet(c)
    ensures EncodeSextet(v) == c
  {
    if 65 <= c <= 90 then c as int - 65
    else if 97 <= c <= 122 then c as int - 97 + 26
    else if 48 <= c <= 57 then c as int - 48 + 52
    else if c == 45 then 62
    else 63
  }

  lemma SextetRoundTrip(v: sextet)
    ensures DecodeSextet(EncodeSextet(v)) == v
  {
  }

  /** A byte an encoder may emit: an alphabet character or the pad. */
  predicate IsEncodingByte(c: byte) {
    IsAlphabet(c) || c == Pad
  }

  /** Three bytes as four characters. */
  function EncodeQuantum(x: byte, y: byte, z: byte): bytes {
    [ EncodeSextet(x as int / 4),
      EncodeSextet(x as int % 4 * 16 + y as int / 16),
      EncodeSextet(y as int % 16 * 4 + z as int / 64),
      EncodeSextet(z as int % 64) ]
  }

  /** `EncodeToString`. */
  function Encode(data: bytes): (s: bytes)
    ensures |s| == (|data| + 2) / 3 * 4
    ensures forall i :: 0 <= i < |s| ==> IsEncodingByte(s[i])
    decreases |data|
  {
    if |data| == 0 then []
    else if |data| == 1 then
      var x := data[0];
      [EncodeSextet(x as int / 4), EncodeSextet(x as int % 4 * 16), Pad, Pad]
    else if |data| == 2 then
      var x, y := data[0], data[1];
      [ EncodeSextet(x as int / 4),
        EncodeSextet(x as int % 4 * 16 + y as int / 16),
        EncodeSextet(y as int % 16 * 4),
        Pad ]
    else
      EncodeQuantum(data[0], data[1], data[2]) + Encode(data[3..])
  }

  /** The input with every '\r' and '\n' removed, as the decoder skips them. */
  function StripNewlines(s: bytes): (r: bytes)
    ensures LineFeed !in r && CarriageReturn !in r
    ensures |r| <= |s|
  {
    if |s| == 0 then []
    else if s[0] == LineFeed || s[0] == CarriageReturn then StripNewlines(s[1..])
    else [s[0]] + StripNewlines(s[1..])
  }

  /** Four alphabet characters as three bytes. */
  function DecodeFull(a: byte, b: byte, c: byte, d: byte): Option<bytes> {
    if IsAlphabet(a) && IsAlphabet(b) && IsAlphabet(c) && IsAlphabet(d) then
      var va, vb, vc, vd := DecodeSextet(a), DecodeSextet(b), DecodeSextet(c), DecodeSextet(d);
      Some([ (va * 4 + vb / 16) as byte,
             (vb % 16 * 16 + vc / 4) as byte,
             (vc % 4 * 64 + vd) as byte ])
    else None
  }

  /** The last quantum, which alone may end in "=" or "==". */
  function DecodeFinal(a: byte, b: byte, c: byte, d: byte): Option<bytes> {
    if d != Pad then DecodeFull(a, b, c, d)
    else if c != Pad then
      if IsAlphabet(a) && IsAlphabet(b) && IsAlphabet(c) then
        var va, vb, vc := DecodeSextet(a), DecodeSextet(b), DecodeSextet(c);
        Some([(va * 4 + vb / 16) as byte, (vb % 16 * 16 + vc / 4) as byte])
      else None
    else if IsAlphabet(a) && IsAlphabet(b) then
      var va, vb := DecodeSextet(a), DecodeSextet(b);
      Some([(va * 4 + vb / 16) as byte])
    else None
  }

  /** Decoding of newline-free input: whole quanta, padding only at the end. */
  function DecodeQuanta(t: bytes): Option<bytes>
    decreases |t|
  {
    if |t| == 0 then Some([])
    else if |t| < 4 then None
    else if |t| == 4 then DecodeFinal(t[0], t[1], t[2], t[3])
    else
      match DecodeFull(t[0], t[1], t[2], t[3])
      case None => None
      case Some(head) =>
        match DecodeQuanta(t[4..])
        case None => None
        case Some(tail) => Some(head + tail)
  }

  /** `DecodeString`, with its error reported as `None`. */
  function Decode(s: bytes): (r: Option<bytes>)
    ensures r.Some? ==> |StripNewlines(s)| % 4 == 0
  {
    DecodeQuantaLength(StripNewlines(s));
    DecodeQuanta(StripNewlines(s))
  }

  lemma {:induction false} DecodeQuantaLength(t: bytes)
    ensures DecodeQuanta(t).Some? ==> |t| % 4 == 0
    decreases |t|
  {
    if |t| > 4 {
      DecodeQuantaLength(t[4..]);
    }
  }

  /** Encoded text never holds the '.' that separates the halves of a peer token. */
  lemma EncodeHasNoDot(data: bytes)
    ensures Dot !in Encode(data)
  {
    var s := Encode(data);
    forall i | 0 <= i < |s| ensures s[i] != Dot {
      assert IsEncodingByte(s[i]);
    }
  }

  lemma {:induction false} StripNewlinesOfEncoding(s: bytes)
    requires forall i :: 0 <= i < |s| ==> IsEncodingByte(s[i])
    ensures StripNewlines(s) == s
    decreases |s|
  {
    if |s| > 0 {
      assert IsEncodingByte(s[0]);
      StripNewlinesOfEncoding(s[1..]);
      assert s == [s[0]] + s[1..];
    }
  }

  /** Division and remainder undo a positional split into digits of base `k`. */
  lemma DivModOfDigits(hi: int, lo: int, k: int)
    requires k == 4 || k == 16 || k == 64
    requires 0 <= lo < k && hi >= 0
    ensures (hi * k + lo) / k == hi && (hi * k + lo) % k == lo
  {
    if k == 4 {
      assert (hi * 4 + lo) / 4 == hi;
    } else if k == 16 {
      assert (hi * 16 + lo) / 16 == hi;
    } else {
      assert (hi * 64 + lo) / 64 == hi;
    }
  }

  /** The sextets of three bytes recombine into those bytes. */
  lemma QuantumArithmetic(x: int, y: int, z: int)
    requires 0 <= x < 256 && 0 <= y < 256 && 0 <= z < 256
    ensures var vb, vc := x % 4 * 16 + y / 16, y % 16 * 4 + z / 64;
            x / 4 * 4 + vb / 16 == x && vb % 16 * 16 + vc / 4 == y && vc % 4 * 64 + z % 64 == z
  {
    DivModOfDigits(x % 4, y / 16, 16);
    DivModOfDigits(y % 16, z / 64, 4);
  }

  lemma QuantumRoundTrip(x: byte, y: byte, z: byte)
    ensures var q := EncodeQuantum(x, y, z);
            DecodeFull(q[0], q[1], q[2], q[3]) == Some([x, y, z])
  {
    var va, vb := x as int / 4, x as int % 4 * 16 + y as int / 16;
    var vc, vd := y as int % 16 * 4 + z as int / 64, z as int % 64;
    var q := EncodeQuantum(x, y, z);
    SextetRoundTrip(va); SextetRoundTrip(vb); SextetRoundTrip(vc); SextetRoundTrip(vd);
    assert DecodeSextet(q[0]) == va && DecodeSextet(q[1]) == vb;
    assert DecodeSextet(q[2]) == vc && DecodeSextet(q[3]) == vd;
    QuantumArithmetic(x as int, y as int, z as int);
  }

  lemma TwoBytesRoundTrip(x: byte, y: byte)
    ensures var q := Encode([x, y]);
            DecodeFinal(q[0], q[1], q[2], q[3]) == Some([x, y])
  {
    var va, vb, vc := x as int / 4, x as int % 4 * 16 + y as int / 16, y as int % 16 * 4;
    SextetRoundTrip(va); SextetRoundTrip(vb); SextetRoundTrip(vc);
    DivModOfDigits(x as int % 4, y as int / 16, 16);
    DivModOfDigits(y as int % 16, 0, 4);
  }

  lemma OneByteRoundTrip(x: byte)
    ensures var q := Encode([x]);
            DecodeFinal(q[0], q[1], q[2], q[3]) == Some([x])
  {
    var va, vb := x as int / 4, x as int % 4 * 16;
    SextetRoundTrip(va); SextetRoundTrip(vb);
    DivModOfDigits(x as int % 4, 0, 16);
  }

  lemma {:induction false} DecodeQuantaOfEncode(data: bytes)
    ensures DecodeQuanta(Encode(data)) == Some(data)
    decreases |data|
  {
    if |data| == 1 {
      OneByteRoundTrip(data[0]);
      assert [data[0]] == data;
    } else if |data| == 2 {
      TwoBytesRoundTrip(data[0], data[1]);
      assert [data[0], data[1]] == data;
    } else if |data| >= 3 {
      var t := Encode(data);
      var rest := data[3..];
      QuantumRoundTrip(data[0], data[1], data[2]);
      assert t[4..] == Encode(rest);
      assert data == [data[0], data[1], data[2]] + rest;
      if |rest| == 0 {
        assert t == EncodeQuantum(data[0], data[1], data[2]);
        assert IsAlphabet(t[3]) && t[3] != Pad;
        assert DecodeQuanta(t) == DecodeFinal(t[0], t[1], t[2], t[3]);
        assert data == [data[0], data[1], data[2]];
      } else {
        DecodeQuantaOfEncode(rest);
      }
    }
  }

  /** Decoding undoes encoding: `DecodeString(EncodeToString(b)) == b`. */
  lemma DecodeEncode(data: bytes)
    ensures Decode(Encode(data)) == Some(data)
  {
    StripNewlinesOfEncoding(Encode(data));
    DecodeQuantaOfEncode(data);
  }

  lemma {:induction false} DecodeQuantaOnlyEncodingBytes(t: bytes)
    ensures DecodeQuanta(t).Some? ==> forall i :: 0 <= i < |t| ==> IsEncodingByte(t[i])
    decreases |t|
  {
    if |t| > 4 && DecodeQuanta(t).Some? {
      DecodeQuantaOnlyEncodingBytes(t[4..]);
      forall i | 0 <= i < |t| ensures IsEncodingByte(t[i]) {
        if i >= 4 {
          assert t[i] == t[4..][i - 4];
        }
      }
    }
  }

  lemma {:induction false} StripNewlinesKeeps(s: bytes, i: nat)
    requires i < |s| && s[i] != LineFeed && s[i] != CarriageReturn
    ensures s[i] in StripNewlines(s)
    decreases |s|
  {
    if i > 0 {
      StripNewlinesKeeps(s[1..], i - 1);
    }
  }

  /** Any byte outside the alphabet, the pad and the skipped newlines makes decoding fail. */
  lemma DecodeRejectsForeignByte(s: bytes, i: nat)
    requires i < |s| && !IsEncodingByte(s[i]) && s[i] != LineFeed && s[i] != CarriageReturn
    ensures Decode(s) == None
  {
    var t := StripNewlines(s);
    StripNewlinesKeeps(s, i);
    DecodeQuantaOnlyEncodingBytes(t);
  }
}

=== FILE: bytes.dfy ===
/**
 * Go strings are byte sequences: `len` counts bytes and `[]byte(s)` is the
 * identity on their contents. Identifiers, peer names and tokens are modelled
 * over this type.
 */
module Bytes {

  newtype byte = x: int | 0 <= x < 256

  type bytes = seq<byte>

  const Colon: byte := 58    // ':'
  const Dot: byte := 46      // '.'
  const LineFeed: byte := 10
  const CarriageReturn: byte := 13

  /** The bytes of an ASCII literal. */
  function Ascii(s: string): (r: bytes)
    ensures |r| == |s|
  {
    seq(|s|, i requires 0 <= i < |s| => (s[i] as int % 256) as byte)
  }
}

=== FILE: conn.dfy ===
/**
 * One pairing session (app/conn.go), reduced to the state its operations
 * read and write: a `Handle` per role, the two ends of the byte pipe and the
 * `joined` latch. Goroutines, channel payloads and pipe buffering are not
 * modelled; what is kept is which channels get closed, and when, because
 * closing a Go channel twice panics.
 */
module Connection {

  import opened Wrappers
  import opened Bytes
  import opened Peers

  /** Errors an `io.Pipe` end can carry once closed. */
  datatype IoError = EOF | ErrClosedPipe | Failure(reason: string)

  /** One end of the pipe; a closed end keeps the first error it was closed with. */
  datatype PipeEnd = Open | Closed(err: IoError)

  /** Per-role state: the `entered` flag and whether the role's message channel is closed. */
  datatype Handle = Handle(entered: bool, queueClosed: bool)

  /** `pw` and `pr` record how the writer and the reader closed their ends. */
  datatype Conn = Conn(pw: PipeEnd, pr: PipeEnd, joined: bool, sender: Handle, receiver: Handle)

  /** The channels whose `close` the connection performs. */
  datatype Chan = JoinedChan | SenderMssg | ReceiverMssg

  function NewConn(): Conn {
    Conn(Open, Open, false, Handle(false, false), Handle(false, false))
  }

  /** Whether `ch` has been closed in state `c`. */
  predicate IsClosed(c: Conn, ch: Chan) {
    match ch
    case JoinedChan => c.joined
    case SenderMssg => c.sender.queueClosed
    case ReceiverMssg => c.receiver.queueClosed
  }

  /** A new state together with the channels closed on the way to it. */
  datatype Step = Step(conn: Conn, closed: seq<Chan>)

  /** `joinedOnce.Do(func() { close(c.joined) })`. */
  function Latch(c: Conn): (s: Step)
    ensures s.conn.joined
    ensures s.closed == (if c.joined then [] else [JoinedChan])
    ensures s.conn.(joined := c.joined) == c
  {
    if c.joined then Step(c, []) else Step(c.(joined := true), [JoinedChan])
  }

  datatype EnterError = SenderAlreadyJoined | ReceiverAlreadyJoined | UnknownPeer

  /** `Enter`'s error next to the step it takes. */
  datatype Entry = Entry(step: Step, err: Option<EnterError>)

  /**
   * `Enter` as written: it consults the role's `entered` flag but never sets
   * it, so only the `joined` latch can change.
   */
  function Enter(c: Conn, p: Peer): (e: Entry)
    ensures e.step.conn.sender == c.sender && e.step.conn.receiver == c.receiver
    ensures e.step.conn.pw == c.pw && e.step.conn.pr == c.pr
    ensures e.err.None? <==> (p == PeerSender && !c.sender.entered) || (p == PeerReceiver && !c.receiver.entered)
    ensures e.err.None? ==> e.step.conn.joined
    ensures e.err.Some? ==> e.step == Step(c, [])
    ensures !IsRole(p) ==> e.err == Some(UnknownPeer)
  {
    if p == PeerSender then
      if c.sender.entered then Entry(Step(c, []), Some(SenderAlreadyJoined))
      else Entry(Latch(c), None)
    else if p == PeerReceiver then
      if c.receiver.entered then Entry(Step(c, []), Some(ReceiverAlreadyJoined))
      else Entry(Latch(c), None)
    else Entry(Step(c, []), Some(UnknownPeer))
  }

  /** `CanEnter`: a peek that changes nothing. */
  function CanEnter(c: Conn, p: Peer): (ok: bool)
    ensures ok <==> (p == PeerSender && !c.sender.entered) || (p == PeerReceiver && !c.receiver.entered)
  {
    if p == PeerSender then !c.sender.entered
    else if p == PeerReceiver then !c.receiver.entered
    else false
  }

  /** The value of `Mssg(peer)`: a role's own message channel, or nil. */
  datatype Queue = NilQueue | SenderQueue | ReceiverQueue

  function Mssg(p: Peer): (q: Queue)
    ensures q == SenderQueue <==> p == PeerSender
    ensures q == ReceiverQueue <==> p == PeerReceiver
    ensures q == NilQueue <==> !IsRole(p)
  {
    if p == PeerSender then SenderQueue
    else if p == PeerReceiver then ReceiverQueue
    else NilQueue
  }

  /** `CloseWithError` on a pipe end: the first close decides the error. */
  function CloseEnd(end: PipeEnd, err: IoError): (r: PipeEnd)
    ensures r.Closed?
    ensures end.Closed? ==> r == end
    ensures end.Open? ==> r.err == err
  {
    if end.Open? then Closed(err) else end
  }

  /** `CloseWriter`: close the write end, then the sender channel under its `sync.Once`. */
  function CloseWriter(c: Conn): (s: Step)
    ensures s.conn.pw.Closed? && s.conn.sender.queueClosed
    ensures s.conn.pr == c.pr && s.conn.receiver == c.receiver && s.conn.joined == c.joined
    ensures c.pw.Open? ==> s.conn.pw == Closed(EOF)
    ensures c.pw.Closed? ==> s.conn.pw == c.pw
    ensures s.conn.sender.entered == c.sender.entered
    ensures s.closed == (if c.sender.queueClosed then [] else [SenderMssg])
  {
    var pw := CloseEnd(c.pw, EOF);
    if c.sender.queueClosed then Step(c.(pw := pw), [])
    else Step(c.(pw := pw, sender := c.sender.(queueClosed := true)), [SenderMssg])
  }

  /** `CloseReader`: the mirror image on the read end and the receiver channel. */
  function CloseReader(c: Conn): (s: Step)
    ensures s.conn.pr.Closed? && s.conn.receiver.queueClosed
    ensures s.conn.pw == c.pw && s.conn.sender == c.sender && s.conn.joined == c.joined
    ensures c.pr.Open? ==> s.conn.pr == Closed(ErrClosedPipe)
    ensures c.pr.Closed? ==> s.conn.pr == c.pr
    ensures s.conn.receiver.entered == c.receiver.entered
    ensures s.closed == (if c.receiver.queueClosed then [] else [ReceiverMssg])
  {
    var pr := CloseEnd(c.pr, ErrClosedPipe);
    if c.receiver.queueClosed then Step(c.(pr := pr), [])
    else Step(c.(pr := pr, receiver := c.receiver.(queueClosed := true)), [ReceiverMssg])
  }

  /** `Close`: `CloseWriter` followed by `CloseReader`. */
  function Close(c: Conn): (s: Step)
    ensures s.conn.pw.Closed? && s.conn.pr.Closed?
    ensures s.conn.sender.queueClosed && s.conn.receiver.queueClosed
    ensures s.conn.joined == c.joined
  {
    var w := CloseWriter(c);
    var r := CloseReader(w.conn);
    Step(r.conn, w.closed + r.closed)
  }

  /** What `Send` returns; the copy's own outcome is an input, as the copy is I/O. */
  datatype Sent = Sent(conn: Conn, written: nat, err: Option<IoError>)

  /**
   * `Send`: after `io.Copy` into the pipe returned `(written, err)`, close the
   * write end with that error, a nil error closing it with EOF.
   */
  function Send(c: Conn, written: nat, err: Option<IoError>): (s: Sent)
    ensures s.written == written && s.err == err
    ensures c.pw.Open? ==> s.conn.pw == Closed(if err.None? then EOF else err.value)
    ensures c.pw.Closed? ==> s.conn.pw == c.pw
    ensures s.conn.(pw := c.pw) == c
  {
    var closeErr := match err case None => EOF case Some(e) => e;
    Sent(c.(pw := CloseEnd(c.pw, closeErr)), written, err)
  }

  /** How `Receive` (an `io.Copy` out of the pipe) ends once the buffered bytes are drained. */
  datatype ReadEnd = Blocked | Finished(err: Option<IoError>)

  /**
   * A read on a drained pipe blocks while both ends are open; it fails with
   * `ErrClosedPipe` once the read end is closed, and otherwise returns the
   * writer's close error, which `io.Copy` reports as nil when it is EOF.
   */
  function ReceiveEnd(c: Conn): (r: ReadEnd)
    ensures r.Blocked? <==> c.pw.Open? && c.pr.Open?
    ensures c.pr.Closed? ==> r == Finished(Some(ErrClosedPipe))
    ensures c.pr.Open? && c.pw.Closed? ==> r == Finished(if c.pw.err == EOF then None else Some(c.pw.err))
  {
    if c.pr.Closed? then Finished(Some(ErrClosedPipe))
    else if c.pw.Closed? then (if c.pw.err == EOF then Finished(None) else Finished(Some(c.pw.err)))
    else Blocked
  }

  /** A connection's operations, for reasoning about sequences of them. */
  datatype Op =
    | EnterOp(peer: Peer)
    | CloseWriterOp
    | CloseReaderOp
    | CloseOp
    | SendOp(written: nat, err: Option<IoError>)

  function Apply(c: Conn, op: Op): Step {
    match op
    case EnterOp(p) => Enter(c, p).step
    case CloseWriterOp => CloseWriter(c)
    case CloseReaderOp => CloseReader(c)
    case CloseOp => Close(c)
    case SendOp(n, err) => Step(Send(c, n, err).conn, [])
  }

  function Run(c: Conn, ops: seq<Op>): Step
    decreases |ops|
  {
    if |ops| == 0 then Step(c, [])
    else
      var first := Apply(c, ops[0]);
      var rest := Run(first.conn, ops[1..]);
      Step(rest.conn, first.closed + rest.closed)
  }

  function Count(chans: seq<Chan>, ch: Chan): nat {
    if |chans| == 0 then 0 else (if chans[0] == ch then 1 else 0) + Count(chans[1..], ch)
  }

  lemma {:induction false} CountAppend(a: seq<Chan>, b: seq<Chan>, ch: Chan)
    ensures Count(a + b, ch) == Count(a, ch) + Count(b, ch)
    decreases |a|
  {
    if |a| > 0 {
      assert (a + b)[1..] == a[1..] + b;
      CountAppend(a[1..], b, ch);
    } else {
      assert a + b == b;
    }
  }

  /** One operation closes a channel exactly when it flips that channel's flag, and never reopens one. */
  lemma ApplyClosesOnFlip(c: Conn, op: Op, ch: Chan)
    ensures IsClosed(c, ch) ==> IsClosed(Apply(c, op).conn, ch)
    ensures Count(Apply(c, op).closed, ch)
            == (if IsClosed(Apply(c, op).conn, ch) && !IsClosed(c, ch) then 1 else 0)
  {
    match op
    case CloseOp =>
      var w := CloseWriter(c);
      CountAppend(w.closed, CloseReader(w.conn).closed, ch);
    case _ =>
  }

  /**
   * Over any sequence of operations each channel is closed at most once, and
   * exactly once if it ends closed having started open: the `sync.Once`
   * guards keep `close` from running twice, which would panic.
   */
  lemma {:induction false} RunClosesEachChannelOnce(c: Conn, ops: seq<Op>, ch: Chan)
    ensures IsClosed(c, ch) ==> IsClosed(Run(c, ops).conn, ch)
    ensures Count(Run(c, ops).closed, ch)
            == (if IsClosed(Run(c, ops).conn, ch) && !IsClosed(c, ch) then 1 else 0)
    decreases |ops|
  {
    if |ops| > 0 {
      var first := Apply(c, ops[0]);
      ApplyClosesOnFlip(c, ops[0], ch);
      RunClosesEachChannelOnce(first.conn, ops[1..], ch);
      CountAppend(first.closed, Run(first.conn, ops[1..]).closed, ch);
    }
  }

  /** From a fresh connection no channel is ever closed twice. */
  lemma FreshConnClosesAtMostOnce(ops: seq<Op>, ch: Chan)
    ensures Count(Run(NewConn(), ops).closed, ch) <= 1
  {
    RunClosesEachChannelOnce(NewConn(), ops, ch);
  }

  /** No operation ever sets either role's `entered` flag. */
  lemma {:induction false} EnteredNeverSet(c: Conn, ops: seq<Op>)
    ensures Run(c, ops).conn.sender.entered == c.sender.entered
    ensures Run(c, ops).conn.receiver.entered == c.receiver.entered
    decreases |ops|
  {
    if |ops| > 0 {
      EnteredNeverSet(Apply(c, ops[0]).conn, ops[1..]);
    }
  }

  /**
   * As written, on every connection reachable from `NewConn`, `Enter` by either
   * role succeeds and `CanEnter` holds: the "already joined" errors cannot occur,
   * so a role can be entered any number of times.
   */
  lemma EnterAlwaysSucceeds(ops: seq<Op>, p: Peer)
    requires IsRole(p)
    ensures Enter(Run(NewConn(), ops).conn, p).err == None
    ensures CanEnter(Run(NewConn(), ops).conn, p)
  {
    EnteredNeverSet(NewConn(), ops);
  }

  /** Once latched, `joined` stays latched whatever follows. */
  lemma JoinedNeverResets(c: Conn, ops: seq<Op>)
    requires c.joined
    ensures Run(c, ops).conn.joined
  {
    RunClosesEachChannelOnce(c, ops, JoinedChan);
  }

  /** Closing the write half twice is closing it once. */
  lemma CloseWriterIdempotent(c: Conn)
    ensures CloseWriter(CloseWriter(c).conn) == Step(CloseWriter(c).conn, [])
  {
  }

  /** Closing the read half twice is closing it once. */
  lemma CloseReaderIdempotent(c: Conn)
    ensures CloseReader(CloseReader(c).conn) == Step(CloseReader(c).conn, [])
  {
  }

  /** The halves close independently: either order reaches the same state and closes the same channels. */
  lemma CloseHalvesCommute(c: Conn)
    ensures CloseReader(CloseWriter(c).conn).conn == CloseWriter(CloseReader(c).conn).conn
    ensures multiset(CloseWriter(c).closed + CloseReader(CloseWriter(c).conn).closed)
            == multiset(CloseReader(c).closed + CloseWriter(CloseReader(c).conn).closed)
  {
  }

  /** `Close` twice is `Close` once. */
  lemma CloseIdempotent(c: Conn)
    ensures Close(Close(c).conn) == Step(Close(c).conn, [])
  {
  }

  /**
   * What the reader observes after `Send` on a pipe whose write end was still
   * open: the copy's own error, or a clean end of stream when it succeeded.
   * (`io.Copy` reports success as nil, never as EOF.)
   */
  lemma ReceiverSeesSendOutcome(c: Conn, written: nat, err: Option<IoError>)
    requires c.pw.Open? && c.pr.Open?
    requires err != Some(EOF)
    ensures ReceiveEnd(Send(c, written, err).conn) == Finished(err)
  {
  }

  /**
   * When the request ends before the copy does, `CloseWriter` closes the
   * write end with EOF first; the copy's error then finds the end already
   * closed, so the reader sees a clean end of stream while the sender's
   * copy reports the failure.
   */
  lemma EarlyCloseHidesSendError(c: Conn, written: nat, e: IoError)
    requires c.pw.Open? && c.pr.Open?
    ensures var s := Send(CloseWriter(c).conn, written, Some(e));
            s.err == Some(e) && ReceiveEnd(s.conn) == Finished(None)
  {
  }

  // ProgressReader

  /** The `(n, err)` pair an `io.Reader.Read` returns. */
  datatype ReadResult = ReadResult(n: nat, err: Option<IoError>)

  /** A `ProgressReader.Read`: the inner result, and the delta sent on the progress channel, if any. */
  datatype ProgressStep = ProgressStep(result: ReadResult, delta: Option<nat>)

  function ProgressRead(inner: ReadResult): (r: ProgressStep)
    ensures r.result == inner
    ensures r.delta.Some? <==> inner.err.None?
    ensures r.delta.Some? ==> r.delta.value == inner.n
  {
    if inner.err.Some? then ProgressStep(inner, None)
    else ProgressStep(inner, Some(inner.n))
  }

  /** The deltas a run of reads emits, in read order (delivery order is not guaranteed). */
  function Deltas(results: seq<ReadResult>): seq<nat> {
    if |results| == 0 then []
    else
      var step := ProgressRead(results[0]);
      (if step.delta.Some? then [step.delta.value] else []) + Deltas(results[1..])
  }

  function Sum(xs: seq<nat>): nat {
    if |xs| == 0 then 0 else xs[0] + Sum(xs[1..])
  }

  /** Bytes the inner reader returned over a run of reads. */
  function Returned(results: seq<ReadResult>): nat {
    if |results| == 0 then 0 else results[0].n + Returned(results[1..])
  }

  lemma {:induction false} SumAppend(a: seq<nat>, b: seq<nat>)
    ensures Sum(a + b) == Sum(a) + Sum(b)
    decreases |a|
  {
    if |a| == 0 {
      assert a + b == b;
    } else {
      assert (a + b)[1..] == a[1..] + b;
      SumAppend(a[1..], b);
    }
  }

  /**
   * The progress total never exceeds the bytes read, and falls short by
   * exactly the bytes returned together with an error.
   */
  lemma {:induction false} DeltasAccountForReads(results: seq<ReadResult>)
    ensures Sum(Deltas(results)) <= Returned(results)
    ensures Sum(Deltas(results)) == Returned(results) <==>
              forall i :: 0 <= i < |results| && results[i].err.Some? ==> results[i].n == 0
    decreases |results|
  {
    if |results| > 0 {
      var step := ProgressRead(results[0]);
      var head: seq<nat> := if step.delta.Some? then [step.delta.value] else [];
      SumAppend(head, Deltas(results[1..]));
      DeltasAccountForReads(results[1..]);
      assert forall i :: 1 <= i < |results| ==> results[i] == results[1..][i - 1];
    }
  }
}

=== FILE: errors.dfy ===
/**
 * `ClientError` (app/errors.go): an error carrying the message, description
 * and HTTP status a handler wants shown, built with value-receiver setters.
 */
module ClientErrors {

  import opened Wrappers

  const StatusBadRequest: int := 400
  const StatusUnauthorized: int := 401
  const StatusNotFound: int := 404
  const StatusInternalServerError: int := 500

  /** An `error` as a handler returns it: an ordinary error, or a `ClientError`. */
  datatype GoError = Plain(text: string) | Client(ce: ClientError)

  /** `wrapped` is the embedded `error`; `None` is a nil error. */
  datatype ClientError = ClientError(wrapped: Option<GoError>, message: string, desc: string, status: int)

  function NewClientError(err: Option<GoError>, message: string): ClientError {
    ClientError(err, message, "", StatusBadRequest)
  }

  function WithStatus(ce: ClientError, status: int): ClientError {
    ce.(status := status)
  }

  function WithDesc(ce: ClientError, desc: string): ClientError {
    ce.(desc := desc)
  }

  function Unwrap(ce: ClientError): Option<GoError> {
    ce.wrapped
  }

  /** A fresh error shows its message with no description and status 400, and unwraps to what it wraps. */
  lemma NewClientErrorDefaults(err: Option<GoError>, message: string)
    ensures var ce := NewClientError(err, message);
            ce.message == message && ce.desc == "" && ce.status == StatusBadRequest && Unwrap(ce) == err
  {
  }

  /** `WithStatus` sets the status and nothing else. */
  lemma WithStatusChangesOnlyStatus(ce: ClientError, status: int)
    ensures WithStatus(ce, status).status == status
    ensures WithStatus(ce, status).(status := ce.status) == ce
    ensures Unwrap(WithStatus(ce, status)) == Unwrap(ce)
  {
  }

  /** `WithDesc` sets the description and nothing else. */
  lemma WithDescChangesOnlyDesc(ce: ClientError, desc: string)
    ensures WithDesc(ce, desc).desc == desc
    ensures WithDesc(ce, desc).(desc := ce.desc) == ce
    ensures Unwrap(WithDesc(ce, desc)) == Unwrap(ce)
  {
  }

  /** The setters commute, and a later call of the same setter wins. */
  lemma SettersCommute(ce: ClientError, status: int, desc: string, status': int, desc': string)
    ensures WithDesc(WithStatus(ce, status), desc) == WithStatus(WithDesc(ce, desc), status)
    ensures WithStatus(WithStatus(ce, status), status') == WithStatus(ce, status')
    ensures WithDesc(WithDesc(ce, desc), desc') == WithDesc(ce, desc')
  {
  }
}

=== FILE: event_stream.dfy ===
/**
 * The receiving side of section 9.2.6 ("Interpreting an event stream") of the
 * WHATWG HTML Living Standard, for the fields this server writes: lines end
 * with CRLF, LF or CR; a blank line dispatches; a line starting with ':' is a
 * comment; `event` sets the type, `data` appends a line to the data buffer;
 * other fields (`id`, `retry`, unknown names) do not affect the dispatched
 * type and data and are ignored here. It is the reference the serialiser of
 * `Messages` is checked against.
 */
module EventStream {

  import opened Wrappers
  import opened Sequences
  import opened Messages

  /** A dispatched event as the client's `EventSource` sees it. */
  datatype Event = Event(eventType: string, data: string)

  datatype Buffers = Buffers(eventType: string, data: string)

  predicate IsLineBreak(c: char) {
    c == '\n' || c == '\r'
  }

  predicate HasLineBreak(s: string) {
    '\n' in s || '\r' in s
  }

  /** Index of the first CR or LF, or `|s|` if there is none. */
  function LineEnd(s: string): (k: nat)
    ensures k <= |s|
    ensures k < |s| ==> IsLineBreak(s[k])
    ensures forall i :: 0 <= i < k ==> !IsLineBreak(s[i])
  {
    if |s| == 0 || IsLineBreak(s[0]) then 0 else 1 + LineEnd(s[1..])
  }

  /** A field line's value: what follows the first ':', less one leading space. */
  function FieldValue(raw: string): string {
    if |raw| > 0 && raw[0] == ' ' then raw[1..] else raw
  }

  /** The effect of one field on the buffers. */
  function ProcessField(field: string, value: string, b: Buffers): Buffers {
    if field == "event" then b.(eventType := value)
    else if field == "data" then b.(data := b.data + value + "\n")
    else b
  }

  /** Processing one non-blank line. */
  function ProcessLine(line: string, b: Buffers): Buffers
    requires line != ""
  {
    if line[0] == ':' then b
    else
      match SplitFirst(line, ':')
      case Some((name, raw)) => ProcessField(name, FieldValue(raw), b)
      case None => ProcessField(line, "", b)
  }

  /** Dispatching non-empty buffers: drop the data's final LF; an unnamed event is a "message". */
  function Dispatch(b: Buffers): Event {
    var data := if |b.data| > 0 && b.data[|b.data| - 1] == '\n' then b.data[..|b.data| - 1] else b.data;
    Event(if b.eventType == "" then "message" else b.eventType, data)
  }

  /** The first event the stream `s` dispatches, starting from buffers `b`. */
  function FirstEvent(s: string, b: Buffers): Option<Event>
    decreases |s|
  {
    var k := LineEnd(s);
    if k == |s| then None    // an unterminated line is discarded at the end of the stream
    else
      var line := s[..k];
      var next := if s[k] == '\r' && k + 1 < |s| && s[k + 1] == '\n' then k + 2 else k + 1;
      if line == "" then
        if b.data == "" then FirstEvent(s[next..], Buffers("", ""))
        else Some(Dispatch(b))
      else FirstEvent(s[next..], ProcessLine(line, b))
  }

  lemma {:induction false} LineEndOfJoin(a: string, rest: string)
    requires !HasLineBreak(a)
    ensures LineEnd(a + "\n" + rest) == |a|
    decreases |a|
  {
    if |a| > 0 {
      assert (a + "\n" + rest)[1..] == a[1..] + "\n" + rest;
      LineEndOfJoin(a[1..], rest);
    }
  }

  /** Reading the line `a` and its LF off the front of a stream. */
  lemma FirstLine(a: string, rest: string, b: Buffers)
    requires !HasLineBreak(a)
    ensures var s := a + "\n" + rest;
            s[..|a|] == a && FirstEvent(s, b) ==
              if a == "" then (if b.data == "" then FirstEvent(rest, Buffers("", "")) else Some(Dispatch(b)))
              else FirstEvent(rest, ProcessLine(a, b))
  {
    var s := a + "\n" + rest;
    LineEndOfJoin(a, rest);
    assert s[..|a|] == a;
    assert s[|a| + 1..] == rest;
  }

  /** A field line `name ": " value`, for a name without ':', carries `value` for `name`. */
  lemma FieldLine(name: string, value: string)
    requires ':' !in name && name != ""
    ensures SplitFirst(name + ": " + value, ':') == Some((name, " " + value))
  {
    assert name + ": " + value == name + [':'] + (" " + value);
    SplitFirstOfJoin(name, ':', " " + value);
  }

  lemma DataLine(value: string, b: Buffers)
    ensures ProcessLine("data: " + value, b) == b.(data := b.data + value + "\n")
  {
    var line := "data: " + value;
    assert line == "data" + ": " + value;
    FieldLine("data", value);
    assert SplitFirst(line, ':') == Some(("data", " " + value));
    assert line[0] != ':';
    assert FieldValue(" " + value) == value;
  }

  lemma EventLine(value: string, b: Buffers)
    ensures ProcessLine("event: " + value, b) == b.(eventType := value)
  {
    var line := "event: " + value;
    assert line == "event" + ": " + value;
    FieldLine("event", value);
    assert SplitFirst(line, ':') == Some(("event", " " + value));
    assert line[0] != ':';
    assert FieldValue(" " + value) == value;
  }

  lemma PrefixedHasNoLineBreak(prefix: string, value: string)
    requires !HasLineBreak(prefix) && !HasLineBreak(value)
    ensures !HasLineBreak(prefix + value)
  {
    var s := prefix + value;
    assert forall i :: |prefix| <= i < |s| ==> s[i] == value[i - |prefix|];
  }

  /** A blank line dispatches whatever data has been buffered. */
  lemma BlankLineDispatches(b: Buffers)
    requires b.data != ""
    ensures FirstEvent("\n", b) == Some(Dispatch(b))
  {
    FirstLine("", "", b);
    assert "" + "\n" + "" == "\n";
  }

  /** A blank line after one data line dispatches that line's value. */
  lemma BlankAfterData(value: string, eventType: string)
    ensures FirstEvent("\n", Buffers(eventType, value + "\n"))
            == Some(Event(if eventType == "" then "message" else eventType, value))
  {
    var data := value + "\n";
    BlankLineDispatches(Buffers(eventType, data));
    assert data[|data| - 1] == '\n';
    assert data[..|data| - 1] == value;
  }

  /** A data line followed by a blank line dispatches that data. */
  lemma DataThenBlank(value: string, b: Buffers)
    requires !HasLineBreak(value) && b.data == ""
    ensures FirstEvent("data: " + value + "\n\n", b) == Some(Event(if b.eventType == "" then "message" else b.eventType, value))
  {
    var line := "data: " + value;
    var after := Buffers(b.eventType, value + "\n");
    PrefixedHasNoLineBreak("data: ", value);
    assert line + "\n\n" == line + "\n" + "\n";
    assert line != "" by { assert |line| >= 6; }
    DataThenNext(line, value, "\n", b);
    BlankAfterData(value, b.eventType);
  }

  /** Reading a data line off the front of a stream starting from empty data. */
  lemma DataThenNext(line: string, value: string, rest: string, b: Buffers)
    requires line == "data: " + value && line != ""
    requires !HasLineBreak(line) && b.data == ""
    ensures FirstEvent(line + "\n" + rest, b) == FirstEvent(rest, Buffers(b.eventType, value + "\n"))
  {
    FirstLine(line, rest, b);
    assert FirstEvent(line + "\n" + rest, b) == FirstEvent(rest, ProcessLine(line, b));
    DataLine(value, b);
    assert b.data + value + "\n" == value + "\n";
  }

  /**
   * A client reading the serialised message gets its type and data back,
   * provided neither field holds a line break.
   */
  lemma SerializeRoundTrip(m: Mssg)
    requires !HasLineBreak(m.event) && !HasLineBreak(m.data)
    ensures FirstEvent(Serialize(m), Buffers("", ""))
            == Some(Event(if m.event == "" then "message" else m.event, m.data))
  {
    var tail := "data: " + m.data + "\n\n";
    if m.event == "" {
      assert Serialize(m) == tail;
      DataThenBlank(m.data, Buffers("", ""));
    } else {
      var line := "event: " + m.event;
      PrefixedHasNoLineBreak("event: ", m.event);
      assert Serialize(m) == line + "\n" + tail;
      FirstLine(line, tail, Buffers("", ""));
      EventLine(m.event, Buffers("", ""));
      DataThenBlank(m.data, Buffers(m.event, ""));
    }
  }

  /** A line naming a field the parser ignores leaves the buffers as they were. */
  lemma IgnoredLine(y: string, rest: string, b: Buffers)
    requires !HasLineBreak(y)
    requires y != "" && ':' !in y && y != "data" && y != "event"
    ensures FirstEvent(y + "\n" + rest, b) == FirstEvent(rest, b)
  {
    FirstLine(y, rest, b);
    assert y[0] != ':' by { assert y[0] in y; }
    assert SplitFirst(y, ':') == None;
    assert ProcessLine(y, b) == ProcessField(y, "", b) == b;
  }

  /** A data line, then a line read as an ignored field, then a blank line. */
  lemma DataThenIgnoredThenBlank(x: string, y: string, b: Buffers)
    requires !HasLineBreak(x) && !HasLineBreak(y) && b.data == ""
    requires y != "" && ':' !in y && y != "data" && y != "event"
    ensures FirstEvent("data: " + x + "\n" + (y + "\n" + "\n"), b)
            == Some(Event(if b.eventType == "" then "message" else b.eventType, x))
  {
    var dataLine := "data: " + x;
    var afterData := Buffers(b.eventType, x + "\n");
    PrefixedHasNoLineBreak("data: ", x);
    assert dataLine != "" by { assert |dataLine| >= 6; }
    DataThenNext(dataLine, x, y + "\n" + "\n", b);
    IgnoredLine(y, "\n", afterData);
    BlankAfterData(x, b.eventType);
  }

  /** Reading a data line off the front of a stream appends its value to the data buffer. */
  lemma DataLineAppends(value: string, rest: string, b: Buffers)
    requires !HasLineBreak(value)
    ensures FirstEvent("data: " + value + "\n" + rest, b) == FirstEvent(rest, b.(data := b.data + value + "\n"))
  {
    var line := "data: " + value;
    PrefixedHasNoLineBreak("data: ", value);
    assert line != "" by { assert |line| >= 6; }
    FirstLine(line, rest, b);
    DataLine(value, b);
  }

  /**
   * Because the data is written verbatim, a line break followed by a `data:`
   * field in it is read as a second data line, and the client receives the
   * two values joined by a newline.
   */
  lemma DataTailReadAsDataLine(x: string, z: string)
    requires !HasLineBreak(x) && !HasLineBreak(z)
    ensures FirstEvent(Serialize(Mssg("", x + "\n" + "data: " + z)), Buffers("", ""))
            == Some(Event("message", x + "\n" + z))
  {
    assert Serialize(Mssg("", x + "\n" + "data: " + z)) == "data: " + x + "\n" + ("data: " + z + "\n" + "\n");
    DataLineAppends(x, "data: " + z + "\n" + "\n", Buffers("", ""));
    assert "" + x + "\n" == x + "\n";
    DataLineAppends(z, "\n", Buffers("", x + "\n"));
    var data := x + "\n" + z + "\n";
    assert x + "\n" + z + "\n" == data;
    BlankLineDispatches(Buffers("", data));
    assert data[|data| - 1] == '\n';
    assert data[..|data| - 1] == x + "\n" + z;
  }

  /**
   * The data is written verbatim, so a line break inside it ends the data
   * line early: when what follows the break reads as an ignored field (as
   * "b" does in "a\nb"), the client sees only the part before the break.
   */
  lemma LineBreakInDataTruncates(x: string, y: string)
    requires !HasLineBreak(x) && !HasLineBreak(y)
    requires y != "" && ':' !in y && y != "data" && y != "event"
    ensures FirstEvent(Serialize(Mssg("", x + "\n" + y)), Buffers("", "")) == Some(Event("message", x))
  {
    assert Serialize(Mssg("", x + "\n" + y)) == "data: " + x + "\n" + (y + "\n" + "\n");
    DataThenIgnoredThenBlank(x, y, Buffers("", ""));
  }
}

=== FILE: mssg.dfy ===
/**
 * Status events (app/mssg.go) and their serialisation as event-stream fields,
 * the format of section 9.2 (server-sent events) of the WHATWG HTML Living
 * Standard.
 */
module Messages {

  import opened Wrappers
  import Sequences

  datatype Mssg = Mssg(event: string, data: string)

  /** `appendMssg`: join with a newline, unless there is nothing to join to. */
  function AppendMssg(src: string, s: string): string {
    if src == "" then s else src + "\n" + s
  }

  /**
   * `Mssg.String`: an optional `event:` line, a `data:` line holding `data`
   * verbatim, and the blank line that ends the event. The ":\n\n" comment
   * the code falls back to is never produced, as a data line is always written.
   */
  function Serialize(m: Mssg): (r: string)
    ensures r == (if m.event == "" then "" else "event: " + m.event + "\n") + "data: " + m.data + "\n\n"
    ensures r != ":\n\n"
    ensures |r| >= 2 && r[|r| - 2..] == "\n\n"
  {
    var header := if m.event != "" then AppendMssg("", "event: " + m.event) else "";
    var fields := AppendMssg(header, "data: " + m.data);
    if fields == "" then ":\n\n" else fields + "\n\n"
  }

  /**
   * Joined lines come apart again at the first newline: `appendMssg` of a
   * non-empty, single-line `src` is `src`, a newline, then `s`.
   */
  lemma AppendMssgSplits(src: string, s: string)
    requires src != "" && '\n' !in src
    ensures Sequences.SplitFirst(AppendMssg(src, s), '\n') == Some((src, s))
  {
    Sequences.SplitFirstOfJoin(src, '\n', s);
  }
}

=== FILE: peer.dfy ===
/**
 * Signed peer tokens (app/peer.go). A token names the role a browser holds on
 * one connection: `b64url(Mac(id ":" role)) "." b64url(id ":" role)`, where
 * `Mac` is HMAC-SHA256 under a secret drawn once per process. The MAC is a
 * parameter here: every property below holds whatever the secret is.
 */
module Peers {

  import opened Wrappers
  import opened Bytes
  import opened Sequences
  import Base64Url

  /** A role name; any byte string has type `Peer`, as in Go. */
  type Peer = bytes

  const PeerSender: Peer := Ascii("sender")
  const PeerReceiver: Peer := Ascii("receiver")

  /** The empty Peer returned alongside every error. */
  const NoPeer: Peer := []

  predicate IsRole(p: Peer) {
    p == PeerSender || p == PeerReceiver
  }

  /** HMAC-SHA256 keyed with the process secret. */
  type Mac = bytes -> bytes

  datatype PeerError = ErrInvalidPeer

  /** The `(Peer, error)` pair `ParsePeer` returns. */
  datatype Parsed = Parsed(peer: Peer, err: Option<PeerError>)

  const Invalid := Parsed(NoPeer, Some(ErrInvalidPeer))

  lemma RoleHasNoColon(p: Peer)
    requires IsRole(p)
    ensures Colon !in p
  {
    if p == PeerSender {
      assert p == [115, 101, 110, 100, 101, 114];
    } else {
      assert p == [114, 101, 99, 101, 105, 118, 101, 114];
    }
  }

  /** The signed payload, `id + ":" + role`. */
  function Payload(id: bytes, p: Peer): bytes {
    id + [Colon] + p
  }

  /** `Peer.Pid`: the token for role `p` on connection `id`. */
  function Pid(mac: Mac, p: Peer, id: bytes): (token: bytes)
    ensures SplitFirst(token, Dot)
            == Some((Base64Url.Encode(mac(Payload(id, p))), Base64Url.Encode(Payload(id, p))))
  {
    var data := Payload(id, p);
    Base64Url.EncodeHasNoDot(mac(data));
    SplitFirstOfJoin(Base64Url.Encode(mac(data)), Dot, Base64Url.Encode(data));
    Base64Url.Encode(mac(data)) + [Dot] + Base64Url.Encode(data)
  }

  /**
   * `ParsePeer`: the role a token grants on connection `id`. Success means the
   * token's second half decodes to exactly `id ":" role`, its first half decodes
   * to the MAC of that payload, and `id` holds no ':'.
   */
  function ParsePeer(mac: Mac, id: bytes, pid: bytes): (r: Parsed)
    ensures r.err.Some? ==> r == Invalid
    ensures r.err.None? ==> IsRole(r.peer) && Colon !in id
    ensures Dot !in pid ==> r == Invalid
    ensures r.err.None? ==>
              && SplitFirst(pid, Dot).Some?
              && var (sig64, data64) := SplitFirst(pid, Dot).value;
              && Base64Url.Decode(data64) == Some(Payload(id, r.peer))
              && Base64Url.Decode(sig64) == Some(mac(Payload(id, r.peer)))
  {
    match SplitFirst(pid, Dot)
    case None => Invalid
    case Some((sig64, data64)) =>
      match Base64Url.Decode(sig64)
      case None => Invalid
      case Some(signature) =>
        match Base64Url.Decode(data64)
        case None => Invalid
        case Some(data) =>
          if signature != mac(data) then Invalid
          else
            match SplitFirst(data, Colon)
            case None => Invalid
            case Some((dataId, dataPeer)) =>
              if dataId != id || (dataPeer != PeerSender && dataPeer != PeerReceiver) then Invalid
              else Parsed(dataPeer, None)
  }

  /** A token parses back to the role it was minted for, on the id it was minted for. */
  lemma ParsePid(mac: Mac, p: Peer, id: bytes)
    requires IsRole(p) && Colon !in id
    ensures ParsePeer(mac, id, Pid(mac, p, id)) == Parsed(p, None)
  {
    var data := Payload(id, p);
    Base64Url.DecodeEncode(mac(data));
    Base64Url.DecodeEncode(data);
    SplitFirstOfJoin(id, Colon, p);
  }

  /** A token whose first half is not the MAC of its second half is refused. */
  lemma TamperedTokenRejected(mac: Mac, id: bytes, sig64: bytes, data64: bytes, signature: bytes, data: bytes)
    requires Dot !in sig64
    requires Base64Url.Decode(sig64) == Some(signature)
    requires Base64Url.Decode(data64) == Some(data)
    requires signature != mac(data)
    ensures ParsePeer(mac, id, sig64 + [Dot] + data64) == Invalid
  {
    SplitFirstOfJoin(sig64, Dot, data64);
  }

  /** A payload holding exactly one ':' splits there and nowhere else. */
  lemma PayloadSplit(id: bytes, p: Peer, dataId: bytes, dataPeer: Peer)
    requires Payload(id, p) == dataId + [Colon] + dataPeer
    requires Colon !in dataId && Colon !in dataPeer
    ensures id == dataId && p == dataPeer
  {
    var s := Payload(id, p);
    assert s[|id|] == Colon;
    assert s[|dataId|] == Colon;
    assert |id| == |dataId|;
    assert id == s[..|id|] == dataId;
    assert p == s[|id| + 1..] == dataPeer;
  }

  /** A token minted for connection `a` grants nothing on any other connection `b`. */
  lemma TokenBoundToId(mac: Mac, p: Peer, a: bytes, b: bytes)
    requires a != b
    ensures ParsePeer(mac, b, Pid(mac, p, a)) == Invalid
  {
    var r := ParsePeer(mac, b, Pid(mac, p, a));
    if r.err.None? {
      Base64Url.DecodeEncode(Payload(a, p));
      RoleHasNoColon(r.peer);
      PayloadSplit(a, p, b, r.peer);
    }
  }

  /** Likewise a token minted for one role never parses as the other. */
  lemma TokenBoundToRole(mac: Mac, p: Peer, id: bytes)
    ensures ParsePeer(mac, id, Pid(mac, p, id)).err.None? ==>
              ParsePeer(mac, id, Pid(mac, p, id)).peer == p
  {
    var r := ParsePeer(mac, id, Pid(mac, p, id));
    if r.err.None? {
      Base64Url.DecodeEncode(Payload(id, p));
      RoleHasNoColon(r.peer);
      PayloadSplit(id, p, id, r.peer);
    }
  }
}

=== FILE: portal.dfy ===
/**
 * The connection registry (app/portal.go): a map from id to connection.
 * Locking is not modelled (every operation is one atomic step); the
 * five-minute idle timer is an explicit disposal event.
 */
module Registry {

  import opened Wrappers
  import opened Bytes
  import opened Connection
  import Secrets

  datatype Portal = Portal(conns: map<bytes, Conn>)

  function NewPortal(): Portal {
    Portal(map[])
  }

  datatype RegistryError = ErrConnectionNotFound | ErrCreateFailed

  /** `GetConnection`. */
  function GetConnection(p: Portal, id: bytes): (r: Result<Conn, RegistryError>)
    ensures r.Ok? <==> id in p.conns
    ensures r.Ok? ==> r.value == p.conns[id]
    ensures r.Err? ==> r.error == ErrConnectionNotFound
  {
    if id in p.conns then Ok(p.conns[id]) else Err(ErrConnectionNotFound)
  }

  /** The registry after a creation attempt, and the id or the error it returned. */
  datatype Created = Created(portal: Portal, result: Result<bytes, RegistryError>)

  /**
   * `createConnectionWithRetries(n)`, where `candidates` are the ids the
   * successive `generateId` calls return. The first candidate among the first
   * `n` that is not live is registered with a fresh connection.
   */
  function CreateWithRetries(p: Portal, n: int, candidates: seq<bytes>): (c: Created)
    requires n <= |candidates|
    ensures c.result.Err? <==> forall k :: 0 <= k < n ==> candidates[k] in p.conns
    ensures c.result.Err? ==> c.portal == p && c.result.error == ErrCreateFailed
    ensures c.result.Ok? ==>
              && c.result.value !in p.conns
              && c.portal.conns == p.conns[c.result.value := NewConn()]
              && |c.portal.conns| == |p.conns| + 1
              && exists k :: 0 <= k < n && candidates[k] == c.result.value
                             && forall j :: 0 <= j < k ==> candidates[j] in p.conns
    decreases n
  {
    if n <= 0 then Created(p, Err(ErrCreateFailed))
    else
      var id := candidates[0];
      if id in p.conns then
        var c := CreateWithRetries(p, n - 1, candidates[1..]);
        assert forall k :: 1 <= k < n ==> candidates[k] == candidates[1..][k - 1];
        c
      else
        Created(Portal(p.conns[id := NewConn()]), Ok(id))
  }

  /** `CreateConnection`: three attempts. */
  function CreateConnection(p: Portal, candidates: seq<bytes>): (c: Created)
    requires |candidates| >= 3
    ensures c.result.Err? <==> candidates[0] in p.conns && candidates[1] in p.conns && candidates[2] in p.conns
    ensures c.result.Err? ==> c.portal == p && c.result.error == ErrCreateFailed
    ensures c.result.Ok? ==>
              var id := c.result.value;
              && id !in p.conns
              && c.portal.conns == p.conns[id := NewConn()]
              && id == (if candidates[0] !in p.conns then candidates[0]
                        else if candidates[1] !in p.conns then candidates[1] else candidates[2])
  {
    CreateWithRetries(p, 3, candidates)
  }

  /** The result of the idle-disposal event: the registry, and the closing of the disposed connection. */
  datatype Disposal = Disposal(portal: Portal, closed: Option<Step>)

  /**
   * `disposeIdleConnection` when its timer fires: a connection nobody joined is
   * closed and its id removed; a joined one (whose watcher has already
   * returned) is left alone. The watcher only exists for registered ids; an
   * absent id changes nothing.
   */
  function DisposeIdle(p: Portal, id: bytes): (d: Disposal)
    ensures id in p.conns && !p.conns[id].joined ==>
              && d.portal.conns == p.conns - {id}
              && d.closed == Some(Close(p.conns[id]))
    ensures !(id in p.conns && !p.conns[id].joined) ==> d == Disposal(p, None)
  {
    if id in p.conns && !p.conns[id].joined then
      Disposal(Portal(p.conns - {id}), Some(Close(p.conns[id])))
    else Disposal(p, None)
  }

  /**
   * What holds of every registry built by these operations: keys are ids of
   * the generated shape, and no connection has either role's flag set.
   */
  predicate Invariant(p: Portal) {
    forall id :: id in p.conns ==>
      Secrets.IsId(id) && !p.conns[id].sender.entered && !p.conns[id].receiver.entered
  }

  lemma NewPortalInvariant()
    ensures Invariant(NewPortal())
  {
  }

  lemma CreatePreservesInvariant(p: Portal, n: int, candidates: seq<bytes>)
    requires Invariant(p)
    requires n <= |candidates|
    requires forall k :: 0 <= k < |candidates| ==> Secrets.IsId(candidates[k])
    ensures Invariant(CreateWithRetries(p, n, candidates).portal)
  {
  }

  lemma DisposePreservesInvariant(p: Portal, id: bytes)
    requires Invariant(p)
    ensures Invariant(DisposeIdle(p, id).portal)
  {
  }

  /** Disposal removes only the idle id; every other entry is untouched. */
  lemma DisposeRemovesOnlyIdle(p: Portal, id: bytes, other: bytes)
    requires other != id
    ensures other in DisposeIdle(p, id).portal.conns <==> other in p.conns
    ensures other in p.conns ==> DisposeIdle(p, id).portal.conns[other] == p.conns[other]
  {
  }

  /** A disposed id is free again: the next creation may mint it. */
  lemma DisposedIdReusable(p: Portal, id: bytes, candidates: seq<bytes>)
    requires id in p.conns && !p.conns[id].joined
    requires |candidates| >= 3 && candidates[0] == id
    ensures CreateConnection(DisposeIdle(p, id).portal, candidates).result == Ok(id)
  {
  }
}

=== FILE: secrets.dfy ===
/**
 * Connection ids (app/secrets.go): four lower-case letters followed by three
 * digits, each drawn with `math/rand.Intn`. The random source is an oracle:
 * the sequence of values `Intn` returns, one per position.
 */
module Secrets {

  import opened Bytes

  const Letters: bytes := Ascii("abcdefghijklmnopqrstuvwxyz")
  const Numbers: bytes := Ascii("1234567890")
  const IdCharsLen: nat := 4
  const IdNumsLen: nat := 3
  const IdLen: nat := IdCharsLen + IdNumsLen

  lemma Alphabets()
    ensures |Letters| == 26 && |Numbers| == 10 && IdLen == 7
    ensures forall k :: 0 <= k < 26 ==> Letters[k] == (97 + k) as byte
    ensures forall k :: 0 <= k < 10 ==> Numbers[k] == (if k < 9 then 49 + k else 48) as byte
  {
  }

  /** The values `rand.Intn(len(letters))` and `rand.Intn(len(numbers))` returned, in call order. */
  predicate ValidDraws(draws: seq<int>) {
    && |draws| == IdLen
    && (forall i :: 0 <= i < IdCharsLen ==> 0 <= draws[i] < |Letters|)
    && (forall i :: IdCharsLen <= i < IdLen ==> 0 <= draws[i] < |Numbers|)
  }

  /** The shape of every id `generateId` can return. */
  predicate IsId(s: bytes) {
    && |s| == IdLen
    && (forall i :: 0 <= i < IdCharsLen ==> 97 <= s[i] <= 122)
    && (forall i :: IdCharsLen <= i < IdLen ==> 48 <= s[i] <= 57)
  }

  /** `generateId`, fed with the draws of the random source. */
  method GenerateId(draws: seq<int>) returns (id: bytes)
    requires ValidDraws(draws)
    ensures |id| == IdLen
    ensures forall i :: 0 <= i < IdCharsLen ==> id[i] == Letters[draws[i]]
    ensures forall i :: IdCharsLen <= i < IdLen ==> id[i] == Numbers[draws[i]]
    ensures IsId(id)
  {
    Alphabets();
    var l: bytes := [];
    while |l| < IdCharsLen
      invariant |l| <= IdCharsLen
      invariant forall i :: 0 <= i < |l| ==> l[i] == Letters[draws[i]]
    {
      l := l + [Letters[draws[|l|]]];
    }
    var n: bytes := [];
    while |n| < IdNumsLen
      invariant |n| <= IdNumsLen
      invariant forall i :: 0 <= i < |n| ==> n[i] == Numbers[draws[IdCharsLen + i]]
    {
      n := n + [Numbers[draws[IdCharsLen + |n|]]];
    }
    id := l + n;
  }

  /** Ids are usable in peer tokens: they hold neither ':' nor '.'. */
  lemma IdHasNoSeparators(s: bytes)
    requires IsId(s)
    ensures Colon !in s && Dot !in s
  {
    forall i | 0 <= i < |s| ensures s[i] != Colon && s[i] != Dot {
      if i < IdCharsLen {
        assert 97 <= s[i] <= 122;
      } else {
        assert 48 <= s[i] <= 57;
      }
    }
  }

  /** The draws that produce a given id: the position of each byte in its alphabet. */
  function DrawsOf(s: bytes): (draws: seq<int>)
    requires IsId(s)
    ensures ValidDraws(draws)
    ensures forall i :: 0 <= i < IdCharsLen ==> Letters[draws[i]] == s[i]
    ensures forall i :: IdCharsLen <= i < IdLen ==> Numbers[draws[i]] == s[i]
  {
    Alphabets();
    seq(IdLen, i requires 0 <= i < IdLen =>
      if i < IdCharsLen then s[i] as int - 97
      else if s[i] == 48 then 9
      else s[i] as int - 49)
  }

  /**
   * Distinct draws give distinct ids: the letters and the digits are each
   * listed without repetition, so an id determines the draws behind it.
   */
  lemma DrawsDetermineId(d1: seq<int>, d2: seq<int>, id: bytes)
    requires ValidDraws(d1) && ValidDraws(d2) && |id| == IdLen
    requires forall i :: 0 <= i < IdCharsLen ==> id[i] == Letters[d1[i]] == Letters[d2[i]]
    requires forall i :: IdCharsLen <= i < IdLen ==> id[i] == Numbers[d1[i]] == Numbers[d2[i]]
    ensures d1 == d2
  {
    Alphabets();
    forall i | 0 <= i < IdLen ensures d1[i] == d2[i] {
      if i < IdCharsLen {
        assert Letters[d1[i]] == Letters[d2[i]];
      } else {
        assert Numbers[d1[i]] == Numbers[d2[i]];
      }
    }
  }
}

=== FILE: sequences.dfy ===
/** Searching and splitting sequences, as Go's `strings` package does for one-byte separators. */
module Sequences {

  import opened Wrappers

  /** Index of the first occurrence of `b` in `s`, if any. */
  function IndexOf<T(==)>(s: seq<T>, b: T): (r: Option<nat>)
    ensures r.None? <==> b !in s
    ensures r.Some? ==> r.value < |s| && s[r.value] == b && b !in s[..r.value]
  {
    if |s| == 0 then None
    else if s[0] == b then Some(0)
    else
      match IndexOf(s[1..], b)
      case None => None
      case Some(k) => assert s[1..][..k] == s[1..k + 1]; Some(k + 1)
  }

  /**
   * `strings.SplitN(s, sep, 2)` for a one-element separator: `None` when it yields
   * a single part, otherwise the parts before and after the first separator.
   */
  function SplitFirst<T(==)>(s: seq<T>, sep: T): (r: Option<(seq<T>, seq<T>)>)
    ensures r.None? <==> sep !in s
    ensures r.Some? ==> s == r.value.0 + [sep] + r.value.1 && sep !in r.value.0
  {
    match IndexOf(s, sep)
    case None => None
    case Some(k) =>
      assert s == s[..k] + [sep] + s[k + 1..];
      Some((s[..k], s[k + 1..]))
  }

  /** Splitting `a + [sep] + b` with `sep` absent from `a` gives back `a` and `b`. */
  lemma SplitFirstOfJoin<T>(a: seq<T>, sep: T, b: seq<T>)
    requires sep !in a
    ensures SplitFirst(a + [sep] + b, sep) == Some((a, b))
  {
    var s := a + [sep] + b;
    assert s[|a|] == sep;
    assert s[..|a|] == a;
    assert s[|a| + 1..] == b;
  }
}

=== FILE: vite.dfy ===
/**
 * Vite tag rendering (vite/vite.go): the `<script>` and `<link>` tags a page
 * head needs, from the build manifest in production or from the dev server.
 * `filepath.Join` and `strings.TrimSpace` are parameters (`PathOps`); reading
 * and decoding the manifest file is an input.
 */
module Vite {

  import opened Wrappers

  datatype ManifestChunk = ManifestChunk(
    src: string,
    file: string,
    css: seq<string>,
    assets: seq<string>,
    isEntry: bool,
    name: string,
    isDynamicEntry: bool,
    imports: seq<string>,
    dynamicImports: seq<string>)

  type Manifest = map<string, ManifestChunk>

  /** `filepath.Join` of two elements and `strings.TrimSpace`. */
  datatype PathOps = PathOps(join: (string, string) -> string, trimSpace: string -> string)

  datatype Config = Config(manifest: Manifest, staticPath: string, dev: bool, port: string)

  datatype ViteError = ManifestUnreadable(reason: string) | AssetMissing(name: string) | EntryMissing(name: string)

  /** What reading `.vite/manifest.json` and `json.Unmarshal` left in the map, and the error they returned. */
  datatype ManifestLoad = ManifestLoad(decoded: Manifest, err: Option<string>)

  /** `NewFS`: the manifest is only read outside dev mode; the static path is made absolute. */
  function NewFS(ops: PathOps, load: ManifestLoad, staticPath: string, port: string, dev: bool)
    : (r: (Config, Option<ViteError>))
    ensures r.0.staticPath == ops.join("/", staticPath)
    ensures r.0.dev == dev && r.0.port == port
    ensures dev ==> r.0.manifest == map[] && r.1 == None
    ensures !dev ==> r.0.manifest == load.decoded
    ensures !dev ==> (r.1.Some? <==> load.err.Some?)
  {
    var config := Config(if dev then map[] else load.decoded, ops.join("/", staticPath), dev, port);
    if !dev && load.err.Some? then (config, Some(ManifestUnreadable(load.err.value))) else (config, None)
  }

  /** `PublicPath`: an asset of the public directory under the static path. */
  function PublicPath(v: Config, ops: PathOps, path: string): string {
    ops.join(v.staticPath, ops.trimSpace(path))
  }

  /** Public assets are served under the static path the configuration was built with, made absolute. */
  lemma PublicPathUnderStaticPath(ops: PathOps, load: ManifestLoad, staticPath: string, port: string, dev: bool, path: string)
    ensures PublicPath(NewFS(ops, load, staticPath, port, dev).0, ops, path)
            == ops.join(ops.join("/", staticPath), ops.trimSpace(path))
  {
  }

  /** `AssetPath`: the served path of an entry's build output; the name itself in dev mode. */
  function AssetPath(v: Config, ops: PathOps, name: string): (r: Result<string, ViteError>)
    ensures v.dev ==> r == Ok(ops.join("/", ops.trimSpace(name)))
    ensures !v.dev ==> (r.Err? <==> name !in v.manifest)
    ensures !v.dev && name in v.manifest ==> r == Ok(ops.join(v.staticPath, v.manifest[name].file))
    ensures r.Err? ==> r.error == AssetMissing(name)
  {
    if v.dev then Ok(ops.join("/", ops.trimSpace(name)))
    else if name !in v.manifest then Err(AssetMissing(name))
    else Ok(ops.join(v.staticPath, v.manifest[name].file))
  }

  /** `appendTag`: tags are separated by a newline and a tab. */
  function AppendTag(tags: string, s: string): string {
    if |tags| > 0 then tags + "\n\t" + s else s
  }

  /** `appendTag` applied to each of `list` in order. */
  function AppendTags(tags: string, list: seq<string>): string
    decreases |list|
  {
    if |list| == 0 then tags else AppendTags(AppendTag(tags, list[0]), list[1..])
  }

  /** `strings.Join(list, "\n\t")`: the reference the appended output is compared with. */
  function JoinTags(list: seq<string>): string
    decreases |list|
  {
    if |list| == 0 then ""
    else if |list| == 1 then list[0]
    else list[0] + "\n\t" + JoinTags(list[1..])
  }

  function DevClientTag(port: string): string {
    "<script type=\"module\" src=\"http://localhost:" + port + "/@vite/client\"></script>"
  }

  function DevModuleTag(port: string, path: string): string {
    "<script type=\"module\" src=\"http://localhost:" + port + path + "\"></script>"
  }

  function StylesheetTag(href: string): string {
    "<link rel=\"stylesheet\" href=\"" + href + "\" />"
  }

  function ModuleTag(src: string): string {
    "<script type=\"module\" src=\"" + src + "\"></script>"
  }

  function PreloadTag(href: string): string {
    "<link rel=\"modulepreload\" href=\"" + href + "\" />"
  }

  /** The chunks named in `names` that the manifest holds, in order. */
  function Present(m: Manifest, names: seq<string>): (r: seq<ManifestChunk>)
    ensures |r| <= |names|
    ensures (forall i :: 0 <= i < |names| ==> names[i] in m) ==>
              |r| == |names| && forall i :: 0 <= i < |r| ==> r[i] == m[names[i]]
    ensures (forall i :: 0 <= i < |names| ==> names[i] !in m) ==> r == []
    ensures forall c :: c in r ==> exists i :: 0 <= i < |names| && names[i] in m && m[names[i]] == c
    decreases |names|
  {
    if |names| == 0 then []
    else
      var rest := Present(m, names[1..]);
      assert forall i :: 1 <= i < |names| ==> names[1..][i - 1] == names[i];
      if names[0] in m then [m[names[0]]] + rest else rest
  }

  /**
   * `importedChunks`: the chunks named by the dynamic imports, then those named
   * by the static imports; names missing from the manifest are skipped, and
   * the imports of imported chunks are not followed.
   */
  function ImportedChunks(v: Config, chunk: ManifestChunk): (r: seq<ManifestChunk>)
    ensures r == Present(v.manifest, chunk.dynamicImports + chunk.imports)
  {
    PresentAppend(v.manifest, chunk.dynamicImports, chunk.imports);
    Present(v.manifest, chunk.dynamicImports) + Present(v.manifest, chunk.imports)
  }

  /** A single name contributes its chunk when the manifest has it, and nothing otherwise. */
  lemma PresentSingle(m: Manifest, name: string)
    ensures Present(m, [name]) == if name in m then [m[name]] else []
  {
    assert [name][1..] == [];
  }

  /**
   * Looking names up distributes over concatenation: the chunks come out in
   * the order of their names, absent names contributing nothing.
   */
  lemma {:induction false} PresentAppend(m: Manifest, a: seq<string>, b: seq<string>)
    ensures Present(m, a + b) == Present(m, a) + Present(m, b)
    decreases |a|
  {
    if |a| == 0 {
      assert a + b == b;
    } else {
      assert (a + b)[0] == a[0];
      assert (a + b)[1..] == a[1..] + b;
      PresentAppend(m, a[1..], b);
    }
  }

  function StylesheetTags(v: Config, ops: PathOps, css: seq<string>): (r: seq<string>)
  {
    seq(|css|, i requires 0 <= i < |css| => StylesheetTag(PublicPath(v, ops, css[i])))
  }

  function ChunksCss(v: Config, ops: PathOps, chunks: seq<ManifestChunk>): seq<string>
    decreases |chunks|
  {
    if |chunks| == 0 then [] else StylesheetTags(v, ops, chunks[0].css) + ChunksCss(v, ops, chunks[1..])
  }

  function PreloadTags(v: Config, ops: PathOps, chunks: seq<ManifestChunk>): (r: seq<string>)
  {
    seq(|chunks|, i requires 0 <= i < |chunks| => PreloadTag(PublicPath(v, ops, chunks[i].file)))
  }

  /**
   * The tags of one entry, in the order the loop body appends them: its CSS,
   * its imported chunks' CSS, its own script, then a preload per imported chunk.
   */
  function EntryTags(v: Config, ops: PathOps, chunk: ManifestChunk): seq<string> {
    var chunks := ImportedChunks(v, chunk);
    StylesheetTags(v, ops, chunk.css) + ChunksCss(v, ops, chunks)
      + [ModuleTag(PublicPath(v, ops, chunk.file))] + PreloadTags(v, ops, chunks)
  }

  /** The `(template.HTML, error)` pair `RenderViteTags` returns. */
  datatype Rendered = Rendered(html: string, err: Option<ViteError>)

  /** The dev-mode loop over the inputs, `tags` holding what is built so far. */
  function RenderDev(v: Config, ops: PathOps, inputs: seq<string>, tags: string): Rendered
    decreases |inputs|
  {
    if |inputs| == 0 then Rendered(tags, None)
    else
      match AssetPath(v, ops, inputs[0])
      case Err(e) => Rendered("", Some(e))
      case Ok(path) => RenderDev(v, ops, inputs[1..], AppendTag(tags, DevModuleTag(v.port, path)))
  }

  /** The production loop over the inputs. */
  function RenderBuild(v: Config, ops: PathOps, inputs: seq<string>, tags: string): Rendered
    decreases |inputs|
  {
    if |inputs| == 0 then Rendered(tags, None)
    else
      var input := inputs[0];
      if input !in v.manifest || !v.manifest[input].isEntry then Rendered("", Some(EntryMissing(input)))
      else RenderBuild(v, ops, inputs[1..], AppendTags(tags, EntryTags(v, ops, v.manifest[input])))
  }

  /** `RenderViteTags`. */
  function RenderViteTags(v: Config, ops: PathOps, inputs: seq<string>): Rendered {
    if v.dev then RenderDev(v, ops, inputs, AppendTag("", DevClientTag(v.port)))
    else RenderBuild(v, ops, inputs, "")
  }

  predicate NonEmptyTags(list: seq<string>) {
    forall i :: 0 <= i < |list| ==> list[i] != ""
  }

  /** Appending tags one at a time is joining them with "\n\t" after what was there. */
  lemma {:induction false} AppendTagsJoin(tags: string, list: seq<string>)
    requires NonEmptyTags(list)
    ensures AppendTags(tags, list) ==
              if |list| == 0 then tags
              else if tags == "" then JoinTags(list)
              else tags + "\n\t" + JoinTags(list)
    decreases |list|
  {
    if |list| > 0 {
      var next := AppendTag(tags, list[0]);
      assert next != "" by { assert |next| >= |list[0]| > 0; }
      AppendTagsJoin(next, list[1..]);
      if |list| > 1 {
        assert JoinTags(list) == list[0] + "\n\t" + JoinTags(list[1..]);
      }
    }
  }

  lemma {:induction false} AppendTagsConcat(tags: string, a: seq<string>, b: seq<string>)
    ensures AppendTags(AppendTags(tags, a), b) == AppendTags(tags, a + b)
    decreases |a|
  {
    if |a| > 0 {
      assert (a + b)[0] == a[0];
      assert (a + b)[1..] == a[1..] + b;
      AppendTagsConcat(AppendTag(tags, a[0]), a[1..], b);
    } else {
      assert a + b == b;
    }
  }

  /** The dev-server script tag of each input, in order. */
  function DevTags(v: Config, ops: PathOps, inputs: seq<string>): (r: seq<string>)
  {
    seq(|inputs|, i requires 0 <= i < |inputs| => DevModuleTag(v.port, ops.join("/", ops.trimSpace(inputs[i]))))
  }

  lemma {:induction false} RenderDevAppends(v: Config, ops: PathOps, inputs: seq<string>, tags: string)
    requires v.dev
    ensures RenderDev(v, ops, inputs, tags) == Rendered(AppendTags(tags, DevTags(v, ops, inputs)), None)
    decreases |inputs|
  {
    if |inputs| > 0 {
      var first := DevModuleTag(v.port, ops.join("/", ops.trimSpace(inputs[0])));
      RenderDevAppends(v, ops, inputs[1..], AppendTag(tags, first));
      DevTagsCons(v, ops, inputs);
      AppendTagsConcat(tags, [first], DevTags(v, ops, inputs[1..]));
    }
  }

  lemma DevTagsCons(v: Config, ops: PathOps, inputs: seq<string>)
    requires |inputs| > 0
    ensures DevTags(v, ops, inputs) ==
              [DevModuleTag(v.port, ops.join("/", ops.trimSpace(inputs[0])))] + DevTags(v, ops, inputs[1..])
  {
    var rest := DevTags(v, ops, inputs[1..]);
    forall i | 0 <= i < |rest| ensures rest[i] == DevTags(v, ops, inputs)[i + 1] {
      assert inputs[1..][i] == inputs[i + 1];
    }
  }

  /**
   * In dev mode rendering never fails: the dev-server client script comes
   * first, then one module script per input, in the order given.
   */
  lemma RenderDevMode(v: Config, ops: PathOps, inputs: seq<string>)
    requires v.dev
    ensures RenderViteTags(v, ops, inputs) == Rendered(JoinTags([DevClientTag(v.port)] + DevTags(v, ops, inputs)), None)
  {
    var client := DevClientTag(v.port);
    RenderDevAppends(v, ops, inputs, AppendTag("", client));
    AppendTagsConcat("", [client], DevTags(v, ops, inputs));
    assert NonEmptyTags([client] + DevTags(v, ops, inputs)) by {
      var all := [client] + DevTags(v, ops, inputs);
      forall i | 0 <= i < |all| ensures all[i] != "" {
        if i > 0 {
          var tag := DevTags(v, ops, inputs)[i - 1];
          assert all[i] == tag;
          assert tag == DevModuleTag(v.port, ops.join("/", ops.trimSpace(inputs[i - 1])));
          assert |tag| > 0;
        }
      }
    }
    AppendTagsJoin("", [client] + DevTags(v, ops, inputs));
  }

  predicate IsEntry(v: Config, name: string) {
    name in v.manifest && v.manifest[name].isEntry
  }

  /** `e` reports the first of `inputs` that is not an entry chunk. */
  predicate FirstNonEntry(v: Config, inputs: seq<string>, e: ViteError) {
    exists k :: 0 <= k < |inputs| && !IsEntry(v, inputs[k]) && e == EntryMissing(inputs[k])
                && forall j :: 0 <= j < k ==> IsEntry(v, inputs[j])
  }

  /** The production tags of each input that is an entry, in order. */
  function BuildTags(v: Config, ops: PathOps, inputs: seq<string>): seq<string>
    decreases |inputs|
  {
    if |inputs| == 0 then []
    else (if IsEntry(v, inputs[0]) then EntryTags(v, ops, v.manifest[inputs[0]]) else [])
         + BuildTags(v, ops, inputs[1..])
  }

  lemma {:induction false} RenderBuildOutcome(v: Config, ops: PathOps, inputs: seq<string>, tags: string)
    ensures var r := RenderBuild(v, ops, inputs, tags);
            (r.err.None? <==> forall i :: 0 <= i < |inputs| ==> IsEntry(v, inputs[i]))
            && (r.err.None? ==> r.html == AppendTags(tags, BuildTags(v, ops, inputs)))
            && (r.err.Some? ==> r.html == "" && FirstNonEntry(v, inputs, r.err.value))
    decreases |inputs|
  {
    if |inputs| > 0 && IsEntry(v, inputs[0]) {
      var entry := EntryTags(v, ops, v.manifest[inputs[0]]);
      var rest := inputs[1..];
      RenderBuildOutcome(v, ops, rest, AppendTags(tags, entry));
      AppendTagsConcat(tags, entry, BuildTags(v, ops, rest));
      assert forall i :: 1 <= i < |inputs| ==> inputs[i] == rest[i - 1];
      var r := RenderBuild(v, ops, inputs, tags);
      if r.err.Some? {
        var k :| 0 <= k < |rest| && !IsEntry(v, rest[k]) && r.err.value == EntryMissing(rest[k])
                 && forall j :: 0 <= j < k ==> IsEntry(v, rest[j]);
        assert inputs[k + 1] == rest[k];
      }
    }
  }

  /**
   * In production every input must be an entry chunk of the manifest: the
   * first one that is not makes the whole rendering fail with empty output;
   * otherwise the output joins, input by input, the entry's stylesheets, its
   * imported chunks' stylesheets, its module script and its preloads.
   */
  lemma RenderBuildMode(v: Config, ops: PathOps, inputs: seq<string>)
    requires !v.dev
    ensures var r := RenderViteTags(v, ops, inputs);
            (r.err.None? <==> forall i :: 0 <= i < |inputs| ==> IsEntry(v, inputs[i]))
            && (r.err.None? ==> r.html == JoinTags(BuildTags(v, ops, inputs)))
            && (r.err.Some? ==> r.html == "" && FirstNonEntry(v, inputs, r.err.value))
  {
    RenderBuildOutcome(v, ops, inputs, "");
    BuildTagsNonEmpty(v, ops, inputs);
    AppendTagsJoin("", BuildTags(v, ops, inputs));
  }

  lemma {:induction false} BuildTagsNonEmpty(v: Config, ops: PathOps, inputs: seq<string>)
    ensures NonEmptyTags(BuildTags(v, ops, inputs))
    decreases |inputs|
  {
    if |inputs| > 0 {
      BuildTagsNonEmpty(v, ops, inputs[1..]);
      if IsEntry(v, inputs[0]) {
        EntryTagsNonEmpty(v, ops, v.manifest[inputs[0]]);
      }
      var head := if IsEntry(v, inputs[0]) then EntryTags(v, ops, v.manifest[inputs[0]]) else [];
      assert BuildTags(v, ops, inputs) == head + BuildTags(v, ops, inputs[1..]);
      ConcatNonEmpty(head, BuildTags(v, ops, inputs[1..]));
    }
  }

  lemma ConcatNonEmpty(a: seq<string>, b: seq<string>)
    requires NonEmptyTags(a) && NonEmptyTags(b)
    ensures NonEmptyTags(a + b)
  {
    var all := a + b;
    forall i | 0 <= i < |all| ensures all[i] != "" {
      if i >= |a| { assert all[i] == b[i - |a|]; }
    }
  }

  lemma EntryTagsNonEmpty(v: Config, ops: PathOps, chunk: ManifestChunk)
    ensures NonEmptyTags(EntryTags(v, ops, chunk))
  {
    var chunks := ImportedChunks(v, chunk);
    ChunksCssNonEmpty(v, ops, chunks);
    var a := StylesheetTags(v, ops, chunk.css);
    var b := ChunksCss(v, ops, chunks);
    var c := [ModuleTag(PublicPath(v, ops, chunk.file))];
    var d := PreloadTags(v, ops, chunks);
    var all := a + b + c + d;
    forall i | 0 <= i < |all| ensures all[i] != "" {
      if i < |a| { assert all[i] == a[i]; }
      else if i < |a| + |b| { assert all[i] == b[i - |a|]; }
      else if i < |a| + |b| + |c| { assert all[i] == c[i - |a| - |b|]; }
      else { assert all[i] == d[i - |a| - |b| - |c|]; }
    }
  }

  lemma {:induction false} ChunksCssNonEmpty(v: Config, ops: PathOps, chunks: seq<ManifestChunk>)
    ensures NonEmptyTags(ChunksCss(v, ops, chunks))
    decreases |chunks|
  {
    if |chunks| > 0 {
      ChunksCssNonEmpty(v, ops, chunks[1..]);
      var a := StylesheetTags(v, ops, chunks[0].css);
      assert NonEmptyTags(a) by {
        forall i | 0 <= i < |a| ensures a[i] != "" {
          assert a[i] == StylesheetTag(PublicPath(v, ops, chunks[0].css[i]));
        }
      }
      ConcatNonEmpty(a, ChunksCss(v, ops, chunks[1..]));
    }
  }
}

=== FILE: wrappers.dfy ===
/** Failure-carrying return values shared by every module of the model. */
module Wrappers {

  datatype Option<+T> = None | Some(value: T)

  /** A Go `(value, error)` pair in which exactly one side is meaningful. */
  datatype Result<+T, +E> = Ok(value: T) | Err(error: E)
}
